=== FILE: README.md ===
# Stock-management inventory ledger in Dafny

This project models the inventory ledger of the stock-management system's
Spring back end, together with the figures the React pages derive from it.

The store is three id-keyed tables: categories, products and inventory rows.
It also carries the three identity counters and a logical clock. Each service
call is one atomic transition. It either yields a new store, or fails with a
typed `Error` and changes nothing.

The store invariant `Repository.Valid` has five parts:

- every inventory row references an existing product;
- quantity and minimum stock level are non-negative (`@Min(0)`);
- no product has two rows (the unique join column);
- every category a product references exists;
- no timestamp is ahead of the clock.

Every service, repository, cleanup and page operation that writes the store, and the initializer's `run`, is proved to preserve `Valid`. The initializer's intermediate seeding steps are covered as a whole by `DataInitializer.SeedValid`.

Modules, one per source unit:

- `Outcomes`: `Option`, `Result` and the error kinds.
- `Collections`: id-keyed table queries and order-preserving filtering.
- `Entities`: `Category`, `Product` and `Inventory`, plus Java `int` wrap-around.
- `Repository`: the store, its invariant, the repository finders and the saves.
- `CategoryService`, `ProductService` and `InventoryService`: the service methods.
- `DataCleanup`: `cleanupAllData` and `cleanupSeededData`.
- `DataInitializer`: the guarded sample-data seeding `run`.
- `SeedCleanup`: the round trip from seeding to seeded-data cleanup.
- `LowStockItems`, `Dashboard`, `InventoryList` and `ProductList`: the derived views of the four UI pages.

How some details are represented:

- Quantities and amounts are Java `int`s (`Entities.JavaInt`).
- In `addStock` the sum `quantity + amount` wraps around as in Java. The wrapped negative value is then refused by the `@Min(0)` check on save.
- `LocalDateTime.now()` is a logical clock that ticks once per saved inventory row.
- Prices are integer cents.
- Bean validation is a check at save time that fails with `ConstraintViolation`.
- Database foreign keys refuse deleting a referenced row with `ForeignKeyViolation`.
- A finder that returns `Optional` and matches two rows fails with `NonUniqueResult`.
- A reference in a request body is absent, an object without an id, or an id (`Entities.Reference`). Saving a row that points at an object never stored fails with `UnsavedReference`.

The low-stock page's shortage column is `minStockLevel - quantity`, with no
clamping at zero (LowStockItems.jsx:87). `LowStockItems.ShortageNonNegative`
shows this never matters: every row on that page is at or below its minimum,
so the column agrees with `max(0, minStockLevel - quantity)`.

## Model

| member | source | states |
|---|---|---|
| Entities.WrapInt | stock-management/src/main/java/com/example/stockmanagement/service/InventoryService.java:88 | a sum inside the Java int range is unchanged; a sum above it wraps down by 2^32, as Java's `int` addition does |
| Repository.FindByProduct | stock-management/src/main/java/com/example/stockmanagement/repository/InventoryRepository.java:14 | findByProduct yields no row exactly when the product has none, the unique row when it has one, and fails only when two rows share the product, which the invariant excludes |
| Repository.FindBySku | stock-management/src/main/java/com/example/stockmanagement/repository/ProductRepository.java:15 | findBySku yields no product iff none carries the sku, the unique one when exactly one does, and fails with NonUniqueResult iff two products share the sku |
| Repository.FindCategoryByName | stock-management/src/main/java/com/example/stockmanagement/repository/CategoryRepository.java:11 | findByName yields no category iff none has the name, the unique one when exactly one does, and fails with NonUniqueResult iff two categories share the name |
| Repository.ProductsInCategory | stock-management/src/main/java/com/example/stockmanagement/repository/ProductRepository.java:13 | findByCategory holds a product iff it is stored and filed under that category, with its stored values |
| Repository.AllRecords | stock-management/src/main/java/com/example/stockmanagement/service/InventoryService.java:25-27 | findAll lists a row iff it is stored, each entry as stored, in ascending id order, so no row appears twice |
| Repository.FindLowStockItems | stock-management/src/main/java/com/example/stockmanagement/repository/InventoryRepository.java:16-17 | a row is in the result iff it is stored and quantity <= minStockLevel, so the boundary quantity == minimum counts as low stock; no row appears twice; the result is no longer than the list of all rows |
| Repository.LowStockListSize | stock-management/src/main/java/com/example/stockmanagement/repository/InventoryRepository.java:16-17 | the low-stock list is exactly as long as the number of stored rows at or below their minimum |
| Repository.UpdateRow | stock-management/src/main/java/com/example/stockmanagement/model/Inventory.java:22-45 | a save with a negative quantity or minimum is refused with ConstraintViolation; a save of the values the row already holds is not dirty, so row, timestamp and clock stay as they were; otherwise only that row changes, with a fresh timestamp; the invariant is kept |
| Repository.InsertRow | stock-management/src/main/java/com/example/stockmanagement/model/Inventory.java:33-45 | a new row stores exactly the given product, quantity and minimum under a fresh id, stamped with the ticked clock; a negative field is refused |
| Repository.EmptyStoreValid | stock-management/src/main/java/com/example/stockmanagement/model/Inventory.java:17-26 | the empty store satisfies the invariant |
| CategoryService.GetCategoryById | stock-management/src/main/java/com/example/stockmanagement/service/CategoryService.java:28-31 | succeeds iff the id is stored, with that category; otherwise NotFound |
| CategoryService.CreateCategory | stock-management/src/main/java/com/example/stockmanagement/service/CategoryService.java:33-35 | the category is stored under a fresh id with the given name and description; products and rows are untouched |
| CategoryService.UpdateCategory | stock-management/src/main/java/com/example/stockmanagement/service/CategoryService.java:37-42 | NotFound iff the id is unknown; otherwise only name and description change and the id is kept |
| CategoryService.DeleteCategory | stock-management/src/main/java/com/example/stockmanagement/service/CategoryService.java:44-54 | unknown id: NotFound; a category some product is filed under: CategoryInUse and no change; otherwise exactly that category is removed and the invariant holds |
| ProductService.GetProductById | stock-management/src/main/java/com/example/stockmanagement/service/ProductService.java:26-29 | succeeds iff the id is stored, with that product; otherwise NotFound |
| ProductService.GetProductsByCategory | stock-management/src/main/java/com/example/stockmanagement/service/ProductService.java:31-34 | NotFound iff the category is unknown; otherwise exactly the products filed under it |
| ProductService.CreateProduct | stock-management/src/main/java/com/example/stockmanagement/service/ProductService.java:36-42 | fails iff the category reference is an object without an id (UnsavedReference: such a product is never stored uncategorised) or names an id that is not stored (NotFound); otherwise the product is stored under a fresh id with the given fields, filed under the named category or under none when no category is given |
| ProductService.UpdateProduct | stock-management/src/main/java/com/example/stockmanagement/service/ProductService.java:44-58 | NotFound for an unknown product or a missing named category; otherwise name, description, price and sku are overwritten, the id is kept, and the category changes only when it is named by id; a category object without an id is ignored and the old category kept |
| ProductService.UpdateKeepsCategory | stock-management/src/main/java/com/example/stockmanagement/service/ProductService.java:52-55 | an update whose category is absent or has no id succeeds for a stored product and keeps the product's category, so an update cannot clear it |
| ProductService.DeleteProduct | stock-management/src/main/java/com/example/stockmanagement/service/ProductService.java:60-65 | unknown id: NotFound; under a cascade the product and its inventory row always go; under a restrict foreign key the delete fails with ForeignKeyViolation iff the product has a row and succeeds iff it has none; otherwise nothing else changes and the invariant holds |
| InventoryService.GetInventoryById | stock-management/src/main/java/com/example/stockmanagement/service/InventoryService.java:29-32 | succeeds iff the id is stored, with that row; otherwise NotFound |
| InventoryService.LocateRecord | stock-management/src/main/java/com/example/stockmanagement/service/InventoryService.java:70-72 | a product-keyed lookup yields a row of that product, which is its only one; NotFound when the product is unknown or has no row; under one row per product it succeeds iff the product exists and has a row |
| InventoryService.GetInventoryByProductId | stock-management/src/main/java/com/example/stockmanagement/service/InventoryService.java:34-38 | NotFound unless the product exists and has a row; otherwise that product's stored row |
| InventoryService.GetLowStockItems | stock-management/src/main/java/com/example/stockmanagement/service/InventoryService.java:40-42 | exactly the stored rows at or below their minimum, none listed twice |
| InventoryService.CreateInventory | stock-management/src/main/java/com/example/stockmanagement/service/InventoryService.java:44-56 | no product: ConstraintViolation; a product object without an id: ConstraintViolation when a value is negative, otherwise UnsavedReference, since the mapping does not cascade the save to the product; unknown product id: NotFound; a product that already has a row: DuplicateRecord; success iff the product exists, has no row and both values are non-negative, storing exactly the given values |
| InventoryService.CreateNeverDuplicates | stock-management/src/main/java/com/example/stockmanagement/service/InventoryService.java:50-53 | on a valid store, creating a row for a product that has one always fails with DuplicateRecord, so one row per product is kept |
| InventoryService.UpdateInventory | stock-management/src/main/java/com/example/stockmanagement/service/InventoryService.java:58-66 | unknown id: NotFound; otherwise succeeds iff both values are non-negative, overwriting exactly quantity and minimum and keeping id and product; writing back the stored values changes nothing, not even the timestamp |
| InventoryService.UpdateStock | stock-management/src/main/java/com/example/stockmanagement/service/InventoryService.java:68-76 | NotFound unless the product has a row; the service does no sign check, so success is exactly a non-negative quantity, which overwrites only the quantity; setting the quantity it already has changes nothing, not even the timestamp |
| InventoryService.AddStock | stock-management/src/main/java/com/example/stockmanagement/service/InventoryService.java:78-90 | a non-positive amount is InvalidAmount before any lookup; a missing product or row is NotFound; otherwise success iff quantity + amount fits a Java int, giving quantity + amount with minimum, product and id kept and a later timestamp |
| InventoryService.RemoveStock | stock-management/src/main/java/com/example/stockmanagement/service/InventoryService.java:92-108 | a non-positive amount is InvalidAmount before any lookup; NotFound as for addStock; InsufficientStock iff amount > quantity; otherwise quantity - amount, never negative, with everything else kept |
| InventoryService.DeleteInventory | stock-management/src/main/java/com/example/stockmanagement/service/InventoryService.java:110-113 | NotFound iff the id is unknown; otherwise only that row is removed and products and categories are untouched |
| InventoryService.AddThenRemoveRestores | stock-management/src/main/java/com/example/stockmanagement/service/InventoryService.java:88-106 | after a successful addStock(p, n), removeStock(p, n) succeeds and restores every row as it was, except the timestamp |
| DataCleanup.DeleteAllInventory | stock-management/src/main/java/com/example/stockmanagement/service/DataCleanupService.java:30-32 | inventoryRepository.deleteAll leaves no row, keeps products and categories, and keeps the invariant |
| DataCleanup.DeleteAllProducts | stock-management/src/main/java/com/example/stockmanagement/service/DataCleanupService.java:34-35 | under a restrict foreign key, refused with ForeignKeyViolation iff a row references a product; under a cascade never refused; on success no product is left and exactly the rows referencing no product survive, unchanged |
| DataCleanup.DeleteAllCategories | stock-management/src/main/java/com/example/stockmanagement/service/DataCleanupService.java:38-40 | categoryRepository.deleteAll is refused with ForeignKeyViolation iff some product is filed under a stored category; otherwise no category is left, rows and products are kept, and the invariant holds |
| DataCleanup.CleanupAllData | stock-management/src/main/java/com/example/stockmanagement/service/DataCleanupService.java:25-43 | under either product-deletion policy, cleanupAllData always succeeds and leaves all three tables empty and the store valid |
| DataCleanup.CleanupAllStepsValid | stock-management/src/main/java/com/example/stockmanagement/service/DataCleanupService.java:29-39 | under either policy, deleting inventory, then products, then categories keeps every intermediate store valid, and the product delete is never refused |
| DataCleanup.ProductsBeforeInventoryRefused | stock-management/src/main/java/com/example/stockmanagement/service/DataCleanupService.java:29-35 | under a restrict foreign key the order matters: deleting all products while rows exist is refused with ForeignKeyViolation |
| DataCleanup.ProductsBeforeInventoryCascade | stock-management/src/main/java/com/example/stockmanagement/service/DataCleanupService.java:29-35 | under a cascade the product delete never fails and takes every row of a valid store with it |
| DataCleanup.DeleteInventoryOfSkus | stock-management/src/main/java/com/example/stockmanagement/service/DataCleanupService.java:52-93 | removes exactly the rows whose product carries one of the skus, skipping missing skus, and succeeds whenever each sku names at most one product and no product has two rows (otherwise findByProduct fails with NonUniqueResult) |
| DataCleanup.DeleteProductsOfSkus | stock-management/src/main/java/com/example/stockmanagement/service/DataCleanupService.java:95-124 | removes exactly the products carrying one of the skus, each deleted as deleteProduct does under the given policy, together with their rows; succeeds when each sku names at most one product and, under a restrict foreign key, no row references them |
| DataCleanup.DeleteCategoriesNamed | stock-management/src/main/java/com/example/stockmanagement/service/DataCleanupService.java:126-140 | removes exactly the categories with one of the names, and succeeds when no product is filed under them |
| DataCleanup.CleanupSeededData | stock-management/src/main/java/com/example/stockmanagement/service/DataCleanupService.java:45-143 | under either product-deletion policy, on success exactly the rows and products of the six seeded skus and the three seeded categories are gone; all other rows, products and categories are unchanged; the invariant is kept |
| DataCleanup.CleanupSeededSucceeds | stock-management/src/main/java/com/example/stockmanagement/service/DataCleanupService.java:45-143 | under either policy, cleanupSeededData succeeds on a valid store when the seeded skus and names are unique and no surviving product is filed under a seeded category |
| DataInitializer.SeedCategories | stock-management/src/main/java/com/example/stockmanagement/config/DataInitializer.java:43-47 | three categories are saved under the next three ids, each exactly as seeded: Electronics, Clothing and Furniture with their descriptions; nothing else changes, and the invariant holds |
| DataInitializer.InsertProducts | stock-management/src/main/java/com/example/stockmanagement/config/DataInitializer.java:51-60 | saveAll of products: one product per seed under consecutive fresh ids, each with its seed's fields and category, nothing else changed |
| DataInitializer.InsertRows | stock-management/src/main/java/com/example/stockmanagement/config/DataInitializer.java:64-73 | saveAll of inventory rows: one row per seed under consecutive fresh ids, for the matching product, with the seed's quantity and minimum |
| DataInitializer.SeedSavesRows | stock-management/src/main/java/com/example/stockmanagement/config/DataInitializer.java:64-73 | every seeded product gets exactly one row, with its seed's quantity and minimum |
| DataInitializer.SeedValid | stock-management/src/main/java/com/example/stockmanagement/config/DataInitializer.java:43-73 | seeding a valid store with no categories yields a valid store |
| DataInitializer.Run | stock-management/src/main/java/com/example/stockmanagement/config/DataInitializer.java:32-77 | with any category stored, run changes nothing; with none, it seeds the sample data: the three seeded categories, one product per product seed and one row per stock seed, as `SeededFrom` describes; a valid store stays valid |
| DataInitializer.RunIdempotent | stock-management/src/main/java/com/example/stockmanagement/config/DataInitializer.java:35-38 | running twice gives the same store as running once |
| DataInitializer.RunSizes | stock-management/src/main/java/com/example/stockmanagement/config/DataInitializer.java:43-74 | on a store with no categories, run leaves exactly 3 categories and adds exactly 6 products and 6 rows |
| DataInitializer.RunAddsNoLowStock | stock-management/src/main/java/com/example/stockmanagement/config/DataInitializer.java:64-69 | every seeded row has quantity above its minimum, so run leaves the low-stock list's members unchanged |
| SeedCleanup.SeedListsAgree | stock-management/src/main/java/com/example/stockmanagement/service/DataCleanupService.java:53-140 | the skus and names the cleanup looks for are exactly the ones the seeder writes, with no duplicates |
| SeedCleanup.CleanupUndoesSeed | stock-management/src/main/java/com/example/stockmanagement/service/DataCleanupService.java:45-143 | under either product-deletion policy, for any valid store that is the result of seeding a valid store with no categories and none of the seeded skus, cleanupSeededData succeeds and gives back the original rows, products and categories |
| SeedCleanup.CleanupUndoesRun | stock-management/src/main/java/com/example/stockmanagement/service/DataCleanupService.java:45-143 | under either product-deletion policy, on a valid store with no categories and none of the seeded skus, cleanupSeededData after run succeeds and gives back the original rows, products and categories |
| LowStockItems.SuggestedRestock | stock-management-ui/src/pages/inventory/LowStockItems.jsx:37 | the suggestion is at least 1, so it is a valid addStock amount; below the minimum it closes the gap exactly; at or above it, it is 1 |
| LowStockItems.Restock | stock-management-ui/src/pages/inventory/LowStockItems.jsx:42-44 | Restock only adds: on success the row's quantity rises by the suggestion, its minimum, product and id are kept, nothing else in the store changes, and the invariant is kept |
| LowStockItems.ShortageNonNegative | stock-management-ui/src/pages/inventory/LowStockItems.jsx:82-87 | every row on the low-stock page has a non-negative shortage |
| LowStockItems.SuggestionCoversShortage | stock-management-ui/src/pages/inventory/LowStockItems.jsx:37 | on a low-stock row the suggestion equals the positive shortage, and is 1 when the shortage is 0 |
| LowStockItems.RestockBelowMinimum | stock-management-ui/src/pages/inventory/LowStockItems.jsx:37-44 | restocking a row below its minimum succeeds, brings it exactly to the minimum, and leaves it low stock |
| LowStockItems.RestockAtMinimum | stock-management-ui/src/pages/inventory/LowStockItems.jsx:37-44 | restocking a row at its minimum adds 1 and takes it off the low-stock list, unless the quantity is the largest Java int, where the save is refused |
| Dashboard.TotalItems | stock-management-ui/src/pages/Dashboard.jsx:68 | the total over all rows is non-negative under the invariant, and 0 for an empty table |
| Dashboard.AddStockRaisesTotal | stock-management-ui/src/pages/Dashboard.jsx:68 | a successful addStock of n raises the total by exactly n |
| Dashboard.RemoveStockLowersTotal | stock-management-ui/src/pages/Dashboard.jsx:68 | a successful removeStock of n lowers the total by exactly n |
| Dashboard.LowStockCount | stock-management-ui/src/pages/Dashboard.jsx:79 | the card shows the number of stored rows at or below their minimum, so 0 iff there is none |
| Dashboard.Preview | stock-management-ui/src/pages/Dashboard.jsx:92 | the preview holds min(5, length) items and is a prefix of the list, in order |
| Dashboard.PreviewIsLowStock | stock-management-ui/src/pages/Dashboard.jsx:92 | every previewed item is a stored row at or below its minimum |
| Dashboard.CategoryProductCount | stock-management-ui/src/pages/Dashboard.jsx:114-118 | a category's badge is 0 iff no product is filed under it, and never exceeds the number of products |
| Dashboard.CountsBounded | stock-management-ui/src/pages/Dashboard.jsx:114-118 | no product is counted twice: the badges of distinct categories plus the uncategorised products add up to at most the number of products |
| Dashboard.CountsCoverAll | stock-management-ui/src/pages/Dashboard.jsx:114-118 | when every product is filed under a listed category, the badges add up to exactly the number of products |
| InventoryList.SubmitAdjustment | stock-management-ui/src/pages/inventory/InventoryList.jsx:56-63 | Add raises the row's quantity by the amount, Remove lowers it by the amount and never below 0; either way only that row of that product changes, its minimum is kept, the invariant is kept, and a non-positive amount is refused |
| InventoryList.BadgeMatchesLowStockList | stock-management-ui/src/pages/inventory/InventoryList.jsx:103-113 | on a stored row the badge reads Low Stock iff the server lists the row as low stock, and the row highlight agrees with the badge |
| InventoryList.RemoveDisabledIffNothingToRemove | stock-management-ui/src/pages/inventory/InventoryList.jsx:125-133 | on a valid store, Remove is disabled iff every positive removal would fail with InsufficientStock |
| InventoryList.DefaultAmountOutcome | stock-management-ui/src/pages/inventory/InventoryList.jsx:49-54 | with the dialog's initial amount 1, removing succeeds iff Remove is enabled, and adding succeeds unless the quantity is the largest Java int |
| InventoryList.AmountField | stock-management-ui/src/pages/inventory/InventoryList.jsx:170 | the field never holds 0: unparsable text and 0 both become 1, and any other integer is kept |
| InventoryList.FieldAmountChecked | stock-management-ui/src/pages/inventory/InventoryList.jsx:166-170 | the field holds a negative amount iff a negative integer was typed, and the service then refuses it with InvalidAmount |
| InventoryList.AddThenRemoveInDialog | stock-management-ui/src/pages/inventory/InventoryList.jsx:56-66 | adding an amount and then removing it from the refreshed row restores the row's quantity and minimum |
| ProductList.FilterProducts | stock-management-ui/src/pages/products/ProductList.jsx:56-58 | no selection gives the list unchanged; a selection keeps exactly the products filed under that category; the result is never longer |
| ProductList.FilterProductsAppend | stock-management-ui/src/pages/products/ProductList.jsx:57 | filtering keeps the original order: filtering a split list is filtering each part |
| ProductList.UncategorisedOnlyUnderAll | stock-management-ui/src/pages/products/ProductList.jsx:57 | a product with no category is shown iff no category is selected |
| ProductList.FilterProductsIdempotent | stock-management-ui/src/pages/products/ProductList.jsx:56-58 | filtering an already filtered list again changes nothing |
| ProductList.ClientFilterMatchesServer | stock-management-ui/src/pages/products/ProductList.jsx:56-58 | filtering all products by a stored category shows exactly the products getProductsByCategory returns |

## Left out

- HTTP controllers, status-code mapping, the axios client and CORS. Services return typed errors instead.
- Routing, the sidebar, the forms, toasts, loading flags and `window.confirm`.
- The inventory form's filter of available products: it depends on a `product.inventoryId` field the model does not have. Duplicate prevention is modelled in `createInventory`.
- Identity values sent by the client on create. A stored entity's id is always the next value of the table's counter.
- Hibernate's automatic flush of changed managed entities. A change becomes visible only through the explicit save it is followed by; a save that writes the stored values is a no-op (`Repository.UpdateRow`).
- The exact moment JPA flushes. Validation, foreign-key and uniqueness errors are raised at the save or delete that causes them.
- The cascade behaviour of deleting a product. The Product mapping is not part of this model, so `ProductService.DeleteProduct` and every product delete of `DataCleanup` take the policy (`ProductDeletion`) as a parameter, and the properties are stated for both.
- ProductService.CreateProduct: assumes the product's category mapping does not cascade the save, so a category object without an id makes the save fail (`UnsavedReference`). The Product mapping is not part of this model; under a cascading mapping the save would instead store a new category with no name.
- DataCleanup.DeleteCategoriesNamed: assumes the Category mapping does not cascade to products, so deleting a category some product is still filed under is refused with `ForeignKeyViolation`, as the ordering comment at DataCleanupService.java:29 expects. The same holds for `DataCleanup.DeleteAllCategories` and `DataCleanup.DeleteCategoryNamed`. The Category mapping is not part of this model.
- Concurrency, locking and transaction isolation. Every service call is one atomic transition.
- Console logging and the counts it prints.
- Wall-clock time. `lastUpdated` is a logical tick.
- `BigDecimal` prices and the form's `parseFloat`. Prices are integer cents.
- Null names, descriptions and skus: strings are always present.
- JavaScript number precision in the dashboard's sum, and a JavaScript amount too large for a Java `int` reaching the controller. Amounts are Java `int`s from the start.
- The low-stock page lets the user edit the suggested amount before confirming. `LowStockItems.Restock` confirms the suggestion unchanged. An edited amount goes through the same `parseInt(...) || 1` rule as `InventoryList.AmountField` (LowStockItems.jsx:126) and then through `addStock`.
- Stale data on the pages. The model evaluates every view against the current store.
- LowStockItems.Restock: requires the row's quantity to be non-negative, as every stored row's is. A negative quantity could only come from outside the store, and then the suggestion might not fit a Java `int`.
- Dashboard.TotalItems: does not bound each row by the total. The link between the total and the stock changes is stated by `AddStockRaisesTotal` and `RemoveStockLowersTotal`.

=== FILE: category_service.dfy ===
/** CategoryService: lookup, create, update and guarded delete of categories. */
module CategoryService {
  import opened Outcomes
  import opened Entities
  import opened Repository

  /** getCategoryById: the stored category, or NotFound. */
  function GetCategoryById(s: Store, id: CategoryId): (r: Result<Category>)
    ensures r.Success? <==> id in s.categories
    ensures r.Success? ==> r.value == s.categories[id] && r.value.id == id
    ensures r.Failure? ==> r.error == NotFound
  {
    if id in s.categories then Success(s.categories[id]) else Failure(NotFound)
  }

  /** createCategory: stores the category under a fresh id. */
  function CreateCategory(s: Store, name: string, description: string): (r: Saved<Category>)
    ensures r.entity.id !in s.categories
    ensures r.entity.name == name && r.entity.description == description
    ensures r.store.categories == s.categories[r.entity.id := r.entity]
    ensures r.store.products == s.products && r.store.records == s.records
    ensures Valid(s) ==> Valid(r.store)
  {
    InsertCategory(s, name, description)
  }

  /** updateCategory: overwrites name and description of an existing
      category; the id stays. */
  function UpdateCategory(s: Store, id: CategoryId, name: string, description: string)
    : (r: Result<Saved<Category>>)
    ensures r.Failure? <==> id !in s.categories
    ensures r.Failure? ==> r.error == NotFound
    ensures r.Success? ==>
              && r.value.entity == s.categories[id].(name := name, description := description)
              && r.value.entity.id == id
              && r.value.store.categories == s.categories[id := r.value.entity]
              && r.value.store.products == s.products
              && r.value.store.records == s.records
    ensures r.Success? && Valid(s) ==> Valid(r.value.store)
  {
    var current :- GetCategoryById(s, id);
    var c := current.(name := name, description := description);
    Success(Saved(s.(categories := s.categories[id := c]), c))
  }

  /** deleteCategory: refused while any product is filed under the category;
      otherwise only that category goes. */
  function DeleteCategory(s: Store, id: CategoryId): (r: Result<Store>)
    ensures id !in s.categories ==> r == Failure(NotFound)
    ensures id in s.categories ==>
              (r == Failure(CategoryInUse) <==> exists k :: k in s.products && s.products[k].category == Some(id))
    ensures id in s.categories && (forall k :: k in s.products ==> s.products[k].category != Some(id)) ==>
              r.Success?
    ensures r.Success? ==>
              && r.value.categories == s.categories - {id}
              && r.value.products == s.products
              && r.value.records == s.records
    ensures r.Success? && Valid(s) ==> Valid(r.value)
  {
    var category :- GetCategoryById(s, id);
    if |ProductsInCategory(s, category.id)| != 0 then Failure(CategoryInUse)
    else
      Success(s.(categories := s.categories - {id}))
  }
}

=== FILE: collections.dfy ===
/** Id-keyed tables and the queries a repository answers over them, plus
    order-preserving filtering of sequences. */
module Collections {
  import opened Outcomes

  /** Every key of m is below bound: bound is the next id the table hands out. */
  predicate KeysBelow<V>(m: map<nat, V>, bound: nat) {
    forall k :: k in m ==> k < bound
  }

  /** The smallest key in [lo, hi) whose value satisfies p. */
  function Search<V>(m: map<nat, V>, p: V -> bool, lo: nat, hi: nat): (r: Option<nat>)
    ensures r.Some? ==> lo <= r.value < hi && r.value in m && p(m[r.value])
    ensures r.Some? ==> forall k :: lo <= k < r.value && k in m ==> !p(m[k])
    ensures r.None? ==> forall k :: lo <= k < hi && k in m ==> !p(m[k])
    decreases hi - lo
  {
    if lo >= hi then None
    else if lo in m && p(m[lo]) then Some(lo)
    else Search(m, p, lo + 1, hi)
  }

  /** A finder that promises at most one row: no match gives None, exactly one
      match gives its key, and two or more matches are an error. */
  function FindUnique<V>(m: map<nat, V>, p: V -> bool, bound: nat): (r: Result<Option<nat>>)
    requires KeysBelow(m, bound)
    ensures r.Failure? ==> r.error == NonUniqueResult
    ensures r.Failure? <==> exists j, k :: j in m && k in m && j != k && p(m[j]) && p(m[k])
    ensures r == Success(None) <==> forall k :: k in m ==> !p(m[k])
    ensures r.Success? && r.value.Some? ==>
              && r.value.value in m && p(m[r.value.value])
              && forall k :: k in m && p(m[k]) ==> k == r.value.value
  {
    match Search(m, p, 0, bound)
    case None => Success(None)
    case Some(k) =>
      if Search(m, p, k + 1, bound).Some? then Failure(NonUniqueResult) else Success(Some(k))
  }

  /** v is stored in m under some key below n. */
  ghost predicate StoredBelow<V>(m: map<nat, V>, n: nat, v: V) {
    exists k :: k in m && k < n && m[k] == v
  }

  /** The values of m with keys below n, in ascending key order: what findAll
      yields for an id-keyed table. */
  function Listing<V>(m: map<nat, V>, n: nat): (r: seq<V>)
    ensures |r| <= n
    ensures forall i :: 0 <= i < |r| ==> StoredBelow(m, n, r[i])
    ensures forall k :: k in m && k < n ==> m[k] in r
  {
    if n == 0 then []
    else
      var front := Listing(m, n - 1);
      var last := if n - 1 in m then [m[n - 1]] else [];
      assert forall i :: 0 <= i < |front| ==> (front + last)[i] == front[i];
      assert forall i :: 0 <= i < |front| ==> StoredBelow(m, n, front[i]) by {
        forall i | 0 <= i < |front| ensures StoredBelow(m, n, front[i]) {
          assert StoredBelow(m, n - 1, front[i]);
          var k :| k in m && k < n - 1 && m[k] == front[i];
        }
      }
      assert n - 1 in m ==> StoredBelow(m, n, m[n - 1]);
      front + last
  }

  /** The elements of s that satisfy p, in their original order. */
  function Filter<T>(s: seq<T>, p: T -> bool): (r: seq<T>)
    ensures |r| <= |s|
    ensures forall i :: 0 <= i < |r| ==> r[i] in s && p(r[i])
    ensures forall i :: 0 <= i < |s| && p(s[i]) ==> s[i] in r
  {
    if s == [] then [] else (if p(s[0]) then [s[0]] else []) + Filter(s[1..], p)
  }

  /** Filtering distributes over concatenation, which pins down the order of
      the kept elements. */
  lemma {:induction false} FilterAppend<T>(a: seq<T>, b: seq<T>, p: T -> bool)
    ensures Filter(a + b, p) == Filter(a, p) + Filter(b, p)
  {
    if a == [] {
      assert a + b == b;
    } else {
      assert (a + b)[0] == a[0];
      assert (a + b)[1..] == a[1..] + b;
      FilterAppend(a[1..], b, p);
    }
  }

  /** A predicate that holds everywhere keeps the whole sequence. */
  lemma {:induction false} FilterAll<T>(s: seq<T>, p: T -> bool)
    requires forall i :: 0 <= i < |s| ==> p(s[i])
    ensures Filter(s, p) == s
  {
    if s != [] {
      FilterAll(s[1..], p);
    }
  }
}

=== FILE: dashboard.dfy ===
/** The dashboard cards: total items in stock, the low-stock count with a
    preview of the first five, and the number of products per category. */
module Dashboard {
  import opened Outcomes
  import opened Collections
  import opened Entities
  import opened Repository
  import opened InventoryService
  import opened ProductList

  /** How many low-stock rows the preview lists. */
  const PREVIEW_SIZE: nat := 5

  // ---------------------------------------------------------------------
  // Total Items in Stock

  /** The sum of the quantities of the given rows (the reduce from 0). */
  function TotalQuantity(items: seq<Inventory>): (r: int)
    ensures (forall i :: 0 <= i < |items| ==> items[i].quantity >= 0) ==> r >= 0
  {
    if items == [] then 0 else items[0].quantity + TotalQuantity(items[1..])
  }

  /** The total over two lists is the sum of their totals. */
  lemma {:induction false} TotalAppend(a: seq<Inventory>, b: seq<Inventory>)
    ensures TotalQuantity(a + b) == TotalQuantity(a) + TotalQuantity(b)
  {
    if a == [] {
      assert a + b == b;
    } else {
      assert (a + b)[0] == a[0];
      assert (a + b)[1..] == a[1..] + b;
      TotalAppend(a[1..], b);
    }
  }

  /** The total of one row is its quantity. */
  lemma TotalSingle(x: Inventory)
    ensures TotalQuantity([x]) == x.quantity
  {
    assert [x][1..] == [];
  }

  /** The card's figure: the total over every stored row. */
  function TotalItems(s: Store): (r: int)
    ensures StockNonNegative(s) ==> r >= 0
    ensures s.records == map[] ==> r == 0
  {
    var rows := AllRecords(s);
    assert StockNonNegative(s) ==> forall i :: 0 <= i < |rows| ==> rows[i].quantity >= 0;
    assert rows != [] ==> rows[0] in rows;
    TotalQuantity(rows)
  }

  /** The quantities of the rows of m with keys below n, added in key order. */
  function KeyedTotal(m: map<InventoryId, Inventory>, n: nat): int {
    if n == 0 then 0
    else KeyedTotal(m, n - 1) + (if n - 1 in m then m[n - 1].quantity else 0)
  }

  /** The total over a listing is the keyed total. */
  lemma {:induction false} ListingTotal(m: map<InventoryId, Inventory>, n: nat)
    ensures TotalQuantity(Listing(m, n)) == KeyedTotal(m, n)
  {
    if n > 0 {
      ListingStep(m, n);
      ListingTotal(m, n - 1);
      if n - 1 in m {
        TotalAppend(Listing(m, n - 1), [m[n - 1]]);
        TotalSingle(m[n - 1]);
      }
    }
  }

  /** Replacing the row under id changes the keyed total by the change in
      that row's quantity. */
  lemma {:induction false} KeyedTotalReplace(m: map<InventoryId, Inventory>, n: nat, id: InventoryId, rec: Inventory)
    requires id in m && id < n
    ensures KeyedTotal(m[id := rec], n) == KeyedTotal(m, n) - m[id].quantity + rec.quantity
  {
    if id < n - 1 {
      KeyedTotalReplace(m, n - 1, id, rec);
    } else {
      KeyedTotalUnchanged(m, m[id := rec], n - 1);
    }
  }

  /** Maps that agree below n have the same keyed total below n. */
  lemma {:induction false} KeyedTotalUnchanged(m: map<InventoryId, Inventory>, m': map<InventoryId, Inventory>, n: nat)
    requires forall k :: k < n ==> (k in m <==> k in m')
    requires forall k :: k < n && k in m ==> m[k] == m'[k]
    ensures KeyedTotal(m, n) == KeyedTotal(m', n)
  {
    if n > 0 {
      KeyedTotalUnchanged(m, m', n - 1);
    }
  }

  /** Replacing the row under id changes the total over the listing by the
      change in that row's quantity. */
  lemma ListingTotalReplace(m: map<InventoryId, Inventory>, n: nat, id: InventoryId, rec: Inventory)
    requires id in m && id < n
    ensures TotalQuantity(Listing(m[id := rec], n))
            == TotalQuantity(Listing(m, n)) - m[id].quantity + rec.quantity
  {
    ListingTotal(m, n);
    ListingTotal(m[id := rec], n);
    KeyedTotalReplace(m, n, id, rec);
  }

  /** The listing below n is the listing below n - 1 followed by the value
      under n - 1, if any. */
  lemma ListingStep<V>(m: map<nat, V>, n: nat)
    requires n > 0
    ensures n - 1 in m ==> Listing(m, n) == Listing(m, n - 1) + [m[n - 1]]
    ensures n - 1 !in m ==> Listing(m, n) == Listing(m, n - 1)
  {
  }

  /** A successful addStock raises the total by exactly the amount. */
  lemma AddStockRaisesTotal(s: Store, product: ProductId, amount: JavaInt)
    requires AddStock(s, product, amount).Success?
    ensures TotalItems(AddStock(s, product, amount).value.store) == TotalItems(s) + amount
  {
    var saved := AddStock(s, product, amount).value;
    ListingTotalReplace(s.records, s.nextRecordId, saved.entity.id, saved.entity);
  }

  /** A successful removeStock lowers the total by exactly the amount. */
  lemma RemoveStockLowersTotal(s: Store, product: ProductId, amount: JavaInt)
    requires RemoveStock(s, product, amount).Success?
    ensures TotalItems(RemoveStock(s, product, amount).value.store) == TotalItems(s) - amount
  {
    var saved := RemoveStock(s, product, amount).value;
    ListingTotalReplace(s.records, s.nextRecordId, saved.entity.id, saved.entity);
  }

  // ---------------------------------------------------------------------
  // Low Stock Items

  /** The low-stock card: the length of the low-stock list. */
  function LowStockCount(s: Store): (r: nat)
    ensures r == 0 <==> forall k :: k in s.records ==> !IsLowStock(s.records[k])
    ensures r <= |AllRecords(s)|
    ensures r == |set k | k in s.records && IsLowStock(s.records[k])|
  {
    LowStockListSize(s);
    var low := GetLowStockItems(s);
    assert low != [] ==> low[0] in low;
    |low|
  }

  /** The preview: the first five rows of the list, or all when fewer. */
  function Preview(items: seq<Inventory>): (r: seq<Inventory>)
    ensures |r| == if |items| < PREVIEW_SIZE then |items| else PREVIEW_SIZE
    ensures forall i :: 0 <= i < |r| ==> r[i] == items[i]
  {
    if |items| < PREVIEW_SIZE then items else items[..PREVIEW_SIZE]
  }

  /** Every previewed row is a stored row at or below its minimum. */
  lemma PreviewIsLowStock(s: Store)
    ensures forall i :: 0 <= i < |Preview(GetLowStockItems(s))| ==>
              var x := Preview(GetLowStockItems(s))[i];
              x in s.records.Values && IsLowStock(x)
  {
    var low := GetLowStockItems(s);
    assert forall i :: 0 <= i < |Preview(low)| ==> Preview(low)[i] in low;
  }

  // ---------------------------------------------------------------------
  // Product Categories

  /** The badge next to a category: the length of the product list filtered
      to that category. */
  function CategoryProductCount(products: seq<Product>, category: CategoryId): (r: nat)
    ensures r <= |products|
    ensures r == 0 <==> forall i :: 0 <= i < |products| ==> !InCategory(products[i], category)
  {
    var kept := FilterProducts(products, Some(category));
    assert kept != [] ==> kept[0] in kept;
    |kept|
  }

  /** The badges of a list of categories, added up. */
  function CountsSum(products: seq<Product>, categories: seq<CategoryId>): nat {
    if categories == [] then 0
    else CategoryProductCount(products, categories[0]) + CountsSum(products, categories[1..])
  }

  /** How many of the listed categories a product is filed under. */
  function Hits(p: Product, categories: seq<CategoryId>): nat {
    if categories == [] then 0
    else (if InCategory(p, categories[0]) then 1 else 0) + Hits(p, categories[1..])
  }

  /** The number of products without a category. */
  function Uncategorised(products: seq<Product>): nat {
    if products == [] then 0
    else (if products[0].category.None? then 1 else 0) + Uncategorised(products[1..])
  }

  /** No id occurs twice in the list. */
  predicate DistinctIds(categories: seq<CategoryId>) {
    forall i, j :: 0 <= i < j < |categories| ==> categories[i] != categories[j]
  }

  /** One more product adds to the badge of its own category only. */
  lemma CountStep(products: seq<Product>, category: CategoryId)
    requires products != []
    ensures CategoryProductCount(products, category)
            == (if InCategory(products[0], category) then 1 else 0) + CategoryProductCount(products[1..], category)
  {
    var keep := (p: Product) => InCategory(p, category);
    assert products == [products[0]] + products[1..];
    FilterAppend([products[0]], products[1..], keep);
  }

  /** The badges over a list of products are the first product's hits plus
      the badges over the rest. */
  lemma {:induction false} CountsSumStep(products: seq<Product>, categories: seq<CategoryId>)
    requires products != []
    ensures CountsSum(products, categories) == Hits(products[0], categories) + CountsSum(products[1..], categories)
  {
    if categories != [] {
      CountStep(products, categories[0]);
      CountsSumStep(products, categories[1..]);
    }
  }

  /** A product hits at most one of distinct categories, and none when it is
      uncategorised or its category is not listed. */
  lemma {:induction false} HitsAtMostOne(p: Product, categories: seq<CategoryId>)
    requires DistinctIds(categories)
    ensures Hits(p, categories) <= 1
    ensures (p.category.None? || p.category.value !in categories) ==> Hits(p, categories) == 0
  {
    if categories != [] {
      var rest := categories[1..];
      assert DistinctIds(rest) by {
        forall i, j | 0 <= i < j < |rest| ensures rest[i] != rest[j] {
          assert rest[i] == categories[i + 1] && rest[j] == categories[j + 1];
        }
      }
      HitsAtMostOne(p, rest);
      if InCategory(p, categories[0]) {
        assert p.category.value !in rest by {
          forall i | 0 <= i < |rest| ensures rest[i] != p.category.value {
            assert rest[i] == categories[i + 1];
          }
        }
      }
    }
  }

  /** The category card never counts a product twice: the badges of
      distinct categories plus the uncategorised products are at most the
      number of products. */
  lemma {:induction false} CountsBounded(products: seq<Product>, categories: seq<CategoryId>)
    requires DistinctIds(categories)
    ensures CountsSum(products, categories) + Uncategorised(products) <= |products|
  {
    if products == [] {
      EmptyCounts(categories);
    } else {
      CountsSumStep(products, categories);
      HitsAtMostOne(products[0], categories);
      CountsBounded(products[1..], categories);
    }
  }

  /** No products, no badges. */
  lemma {:induction false} EmptyCounts(categories: seq<CategoryId>)
    ensures CountsSum([], categories) == 0
  {
    if categories != [] {
      EmptyCounts(categories[1..]);
    }
  }

  /** When every product is filed under one of the listed categories, the
      badges add up to exactly the number of products. */
  lemma {:induction false} CountsCoverAll(products: seq<Product>, categories: seq<CategoryId>)
    requires DistinctIds(categories)
    requires forall i :: 0 <= i < |products| ==> products[i].category.Some? && products[i].category.value in categories
    ensures CountsSum(products, categories) == |products|
  {
    if products == [] {
      EmptyCounts(categories);
    } else {
      CountsSumStep(products, categories);
      HitsOfListed(products[0], categories);
      CountsCoverAll(products[1..], categories);
    }
  }

  /** A product filed under a listed category hits it. */
  lemma {:induction false} HitsOfListed(p: Product, categories: seq<CategoryId>)
    requires DistinctIds(categories)
    requires p.category.Some? && p.category.value in categories
    ensures Hits(p, categories) == 1
  {
    HitsAtMostOne(p, categories);
    if !InCategory(p, categories[0]) {
      var rest := categories[1..];
      assert p.category.value in rest by {
        var i :| 0 <= i < |categories| && categories[i] == p.category.value;
        assert rest[i - 1] == categories[i];
      }
      assert DistinctIds(rest) by {
        forall i, j | 0 <= i < j < |rest| ensures rest[i] != rest[j] {
          assert rest[i] == categories[i + 1] && rest[j] == categories[j + 1];
        }
      }
      HitsOfListed(p, rest);
    }
  }
}

=== FILE: data_cleanup.dfy ===
/** DataCleanupService: wiping the whole store, and removing only the rows
    the sample-data seeder creates. Each run is one transaction: a failure
    anywhere leaves the store as it was. */
module DataCleanup {
  import opened Outcomes
  import opened Entities
  import opened Repository
  import ProductService

  /** The skus and category names the seeded-data cleanup looks for. */
  const SEEDED_SKUS: seq<string> := ["ELEC-001", "ELEC-002", "CLTH-001", "CLTH-002", "FURN-001", "FURN-002"]
  const SEEDED_CATEGORY_NAMES: seq<string> := ["Electronics", "Clothing", "Furniture"]

  // ---------------------------------------------------------------------
  // cleanupAllData

  /** inventoryRepository.deleteAll: nothing references inventory rows. */
  function DeleteAllInventory(s: Store): (r: Store)
    ensures r.records == map[] && r.products == s.products && r.categories == s.categories
    ensures Valid(s) ==> Valid(r)
  {
    s.(records := map[])
  }

  /** productRepository.deleteAll under the given product mapping: with a
      restrict foreign key it is refused while an inventory row still
      references a product; with a cascade the referencing rows go too. */
  function DeleteAllProducts(s: Store, policy: ProductService.ProductDeletion): (r: Result<Store>)
    ensures r.Failure? <==> policy == ProductService.RestrictedByInventory &&
                            exists k :: k in s.records && s.records[k].product in s.products
    ensures r.Failure? ==> r.error == ForeignKeyViolation
    ensures r.Success? ==> r.value.products == map[] && r.value.categories == s.categories
    ensures r.Success? ==>
              && (forall k :: k in r.value.records <==> k in s.records && s.records[k].product !in s.products)
              && (forall k :: k in r.value.records ==> r.value.records[k] == s.records[k])
    ensures r.Success? && Valid(s) ==> Valid(r.value)
  {
    if policy == ProductService.RestrictedByInventory && exists k | k in s.records :: s.records[k].product in s.products
    then Failure(ForeignKeyViolation)
    else
      var kept := map k | k in s.records && s.records[k].product !in s.products :: s.records[k];
      Success(s.(products := map[], records := kept))
  }

  /** categoryRepository.deleteAll: refused while a product is still filed
      under a category. */
  function DeleteAllCategories(s: Store): (r: Result<Store>)
    ensures r.Failure? <==> exists k :: k in s.products && s.products[k].category.Some?
                                        && s.products[k].category.value in s.categories
    ensures r.Failure? ==> r.error == ForeignKeyViolation
    ensures r.Success? ==> r.value.categories == map[] && r.value.records == s.records && r.value.products == s.products
    ensures r.Success? && Valid(s) ==> Valid(r.value)
  {
    if exists k | k in s.products :: s.products[k].category.Some? && s.products[k].category.value in s.categories
    then Failure(ForeignKeyViolation)
    else Success(s.(categories := map[]))
  }

  /** cleanupAllData: inventory first, then products, then categories. In
      that order no delete is ever refused, and the store ends empty. */
  function CleanupAllData(s: Store, policy: ProductService.ProductDeletion): (r: Result<Store>)
    ensures r.Success?
    ensures r.value.records == map[] && r.value.products == map[] && r.value.categories == map[]
    ensures Valid(r.value)
  {
    var noInventory := DeleteAllInventory(s);
    var noProducts := DeleteAllProducts(noInventory, policy).value;
    DeleteAllCategories(noProducts)
  }

  /** Every intermediate store of cleanupAllData satisfies the invariant, so
      no row ever points at a deleted one. */
  lemma CleanupAllStepsValid(s: Store, policy: ProductService.ProductDeletion)
    requires Valid(s)
    ensures Valid(DeleteAllInventory(s))
    ensures DeleteAllProducts(DeleteAllInventory(s), policy).Success?
    ensures Valid(DeleteAllProducts(DeleteAllInventory(s), policy).value)
  {
  }

  /** With a restrict foreign key the order matters: deleting products while
      inventory rows exist is refused. */
  lemma ProductsBeforeInventoryRefused(s: Store)
    requires Valid(s) && |s.records| > 0
    ensures DeleteAllProducts(s, ProductService.RestrictedByInventory) == Failure(ForeignKeyViolation)
  {
    var k :| k in s.records;
    assert s.records[k].product in s.products;
  }

  /** With a cascade the product delete is never refused, and on a valid
      store it takes every inventory row with it. */
  lemma ProductsBeforeInventoryCascade(s: Store)
    requires Valid(s)
    ensures DeleteAllProducts(s, ProductService.CascadeToInventory).Success?
    ensures DeleteAllProducts(s, ProductService.CascadeToInventory).value.records == map[]
  {
  }

  // ---------------------------------------------------------------------
  // cleanupSeededData

  /** The product exists and its sku is one of skus. */
  ghost predicate SkuListed(s: Store, product: ProductId, skus: seq<string>) {
    product in s.products && s.products[product].sku in skus
  }

  /** No two products share a sku from skus: findBySku answers each of them. */
  ghost predicate SkusUnique(s: Store, skus: seq<string>) {
    forall j, k :: (j in s.products && k in s.products && s.products[j].sku in skus
                    && s.products[j].sku == s.products[k].sku) ==> j == k
  }

  /** No two categories share a name from names. */
  ghost predicate NamesUnique(s: Store, names: seq<string>) {
    forall j, k :: (j in s.categories && k in s.categories && s.categories[j].name in names
                    && s.categories[j].name == s.categories[k].name) ==> j == k
  }

  /** The identity counters and the clock are the same in both stores. */
  ghost predicate CountersKept(s: Store, s': Store) {
    && s'.nextCategoryId == s.nextCategoryId
    && s'.nextProductId == s.nextProductId
    && s'.nextRecordId == s.nextRecordId
    && s'.clock == s.clock
  }

  /** s' keeps exactly the inventory rows of s whose product has no sku from
      skus; nothing else differs. */
  ghost predicate InventoryDropped(s: Store, s': Store, skus: seq<string>) {
    && CountersKept(s, s')
    && s'.products == s.products
    && s'.categories == s.categories
    && (forall k :: k in s'.records <==> k in s.records && !SkuListed(s, s.records[k].product, skus))
    && (forall k :: k in s'.records ==> s'.records[k] == s.records[k])
  }

  /** s' keeps exactly the products of s whose sku is not in skus, and the
      inventory rows of the products it keeps; nothing else differs. */
  ghost predicate ProductsDropped(s: Store, s': Store, skus: seq<string>) {
    && CountersKept(s, s')
    && (forall k :: k in s'.records <==> k in s.records && !SkuListed(s, s.records[k].product, skus))
    && (forall k :: k in s'.records ==> s'.records[k] == s.records[k])
    && s'.categories == s.categories
    && (forall k :: k in s'.products <==> k in s.products && s.products[k].sku !in skus)
    && (forall k :: k in s'.products ==> s'.products[k] == s.products[k])
  }

  /** s' keeps exactly the categories of s whose name is not in names;
      nothing else differs. */
  ghost predicate CategoriesDropped(s: Store, s': Store, names: seq<string>) {
    && CountersKept(s, s')
    && s'.records == s.records
    && s'.products == s.products
    && (forall k :: k in s'.categories <==> k in s.categories && s.categories[k].name !in names)
    && (forall k :: k in s'.categories ==> s'.categories[k] == s.categories[k])
  }

  /** Membership in a non-empty list splits into its head and its tail. */
  lemma HeadTail(xs: seq<string>)
    requires xs != []
    ensures forall x :: x in xs <==> x == xs[0] || x in xs[1..]
  {
    assert xs == [xs[0]] + xs[1..];
  }

  /** Deleting an inventory row keeps the invariant. */
  lemma DropRecordValid(s: Store, id: InventoryId)
    ensures Valid(s) ==> Valid(s.(records := s.records - {id}))
  {
  }

  /** Deleting a category no product is filed under keeps the invariant. */
  lemma DropCategoryValid(s: Store, category: CategoryId)
    requires forall k :: k in s.products ==> s.products[k].category != Some(category)
    ensures Valid(s) ==> Valid(s.(categories := s.categories - {category}))
  {
  }

  /** The inventory row of the product carrying one sku, if both exist. */
  function DeleteInventoryOfSku(s: Store, sku: string): (r: Result<Store>)
    ensures r.Failure? ==> r.error == NonUniqueResult
    ensures SkusUnique(s, [sku]) && OneRecordPerProduct(s) ==> r.Success?
    ensures r.Success? ==> InventoryDropped(s, r.value, [sku])
    ensures r.Success? && Valid(s) ==> Valid(r.value)
  {
    var found :- FindBySku(s, sku);
    if found.None? then Success(s)
    else
      var row :- FindByProduct(s, found.value);
      if row.None? then Success(s)
      else
        DropRecordValid(s, row.value);
        Success(s.(records := s.records - {row.value}))
  }

  /** The first cleanup pass: for each sku in turn, the inventory row of the
      product carrying it. */
  function DeleteInventoryOfSkus(s: Store, skus: seq<string>): (r: Result<Store>)
    ensures r.Failure? ==> r.error == NonUniqueResult
    ensures SkusUnique(s, skus) && OneRecordPerProduct(s) ==> r.Success?
    ensures r.Success? ==> InventoryDropped(s, r.value, skus)
    ensures r.Success? && Valid(s) ==> Valid(r.value)
    decreases |skus|
  {
    if skus == [] then Success(s)
    else
      HeadTail(skus);
      var next :- DeleteInventoryOfSku(s, skus[0]);
      DeleteInventoryOfSkus(next, skus[1..])
  }

  /** The product carrying one sku, if any, deleted under the product
      mapping's policy: a restrict foreign key refuses the delete while an
      inventory row references it, a cascade takes that row with it. */
  function DeleteProductOfSku(s: Store, sku: string, policy: ProductService.ProductDeletion): (r: Result<Store>)
    ensures r.Failure? ==> r.error == NonUniqueResult || r.error == ForeignKeyViolation
    ensures SkusUnique(s, [sku]) &&
            (policy == ProductService.CascadeToInventory ||
             forall k :: k in s.records ==> !SkuListed(s, s.records[k].product, [sku])) ==>
              r.Success?
    ensures r.Success? ==> ProductsDropped(s, r.value, [sku])
    ensures r.Success? && Valid(s) ==> Valid(r.value)
  {
    var found :- FindBySku(s, sku);
    if found.None? then Success(s)
    else ProductService.DeleteProduct(s, found.value, policy)
  }

  /** The second pass: for each sku in turn, the product carrying it. */
  function DeleteProductsOfSkus(s: Store, skus: seq<string>, policy: ProductService.ProductDeletion): (r: Result<Store>)
    ensures r.Failure? ==> r.error == NonUniqueResult || r.error == ForeignKeyViolation
    ensures SkusUnique(s, skus) &&
            (policy == ProductService.CascadeToInventory ||
             forall k :: k in s.records ==> !SkuListed(s, s.records[k].product, skus)) ==>
              r.Success?
    ensures r.Success? ==> ProductsDropped(s, r.value, skus)
    ensures r.Success? && Valid(s) ==> Valid(r.value)
    decreases |skus|
  {
    if skus == [] then Success(s)
    else
      HeadTail(skus);
      var next :- DeleteProductOfSku(s, skus[0], policy);
      DeleteProductsOfSkus(next, skus[1..], policy)
  }

  /** The category carrying one name, if any; the foreign key refuses the
      delete while a product is filed under it. */
  function DeleteCategoryNamed(s: Store, name: string): (r: Result<Store>)
    ensures r.Failure? ==> r.error == NonUniqueResult || r.error == ForeignKeyViolation
    ensures NamesUnique(s, [name]) &&
            (forall k :: k in s.products && s.products[k].category.Some? && s.products[k].category.value in s.categories
                         ==> s.categories[s.products[k].category.value].name != name) ==>
              r.Success?
    ensures r.Success? ==> CategoriesDropped(s, r.value, [name])
    ensures r.Success? && Valid(s) ==> Valid(r.value)
  {
    var found :- FindCategoryByName(s, name);
    if found.None? then Success(s)
    else if exists k | k in s.products :: s.products[k].category == Some(found.value) then Failure(ForeignKeyViolation)
    else
      DropCategoryValid(s, found.value);
      Success(s.(categories := s.categories - {found.value}))
  }

  /** The third pass: for each name in turn, the category carrying it. */
  function DeleteCategoriesNamed(s: Store, names: seq<string>): (r: Result<Store>)
    ensures r.Failure? ==> r.error == NonUniqueResult || r.error == ForeignKeyViolation
    ensures NamesUnique(s, names) &&
            (forall k :: k in s.products && s.products[k].category.Some? && s.products[k].category.value in s.categories
                         ==> s.categories[s.products[k].category.value].name !in names) ==>
              r.Success?
    ensures r.Success? ==> CategoriesDropped(s, r.value, names)
    ensures r.Success? && Valid(s) ==> Valid(r.value)
    decreases |names|
  {
    if names == [] then Success(s)
    else
      HeadTail(names);
      var next :- DeleteCategoryNamed(s, names[0]);
      DeleteCategoriesNamed(next, names[1..])
  }

  /** s' keeps exactly the rows of s that do not involve skus or names:
      the inventory of products with other skus, the products with other
      skus, the categories with other names. */
  ghost predicate SeededRowsDropped(s: Store, s': Store, skus: seq<string>, names: seq<string>) {
    && (forall k :: k in s'.records <==> k in s.records && !SkuListed(s, s.records[k].product, skus))
    && (forall k :: k in s'.records ==> s'.records[k] == s.records[k])
    && (forall k :: k in s'.products <==> k in s.products && s.products[k].sku !in skus)
    && (forall k :: k in s'.products ==> s'.products[k] == s.products[k])
    && (forall k :: k in s'.categories <==> k in s.categories && s.categories[k].name !in names)
    && (forall k :: k in s'.categories ==> s'.categories[k] == s.categories[k])
  }

  /** cleanupSeededData: the inventory of every product with a seeded sku,
      then those products, then the categories with a seeded name. Missing
      skus and names are skipped; rows with other skus and names stay. */
  function CleanupSeededData(s: Store, policy: ProductService.ProductDeletion): (r: Result<Store>)
    ensures r.Failure? ==> r.error == NonUniqueResult || r.error == ForeignKeyViolation
    ensures r.Success? ==> SeededRowsDropped(s, r.value, SEEDED_SKUS, SEEDED_CATEGORY_NAMES)
    ensures r.Success? && Valid(s) ==> Valid(r.value)
  {
    var noInventory :- DeleteInventoryOfSkus(s, SEEDED_SKUS);
    var noProducts :- DeleteProductsOfSkus(noInventory, SEEDED_SKUS, policy);
    DeleteCategoriesNamed(noProducts, SEEDED_CATEGORY_NAMES)
  }

  /** cleanupSeededData succeeds whenever the seeded skus and names each
      identify at most one row and no surviving product is filed under a
      category it deletes. */
  lemma CleanupSeededSucceeds(s: Store, policy: ProductService.ProductDeletion)
    requires Valid(s)
    requires SkusUnique(s, SEEDED_SKUS) && NamesUnique(s, SEEDED_CATEGORY_NAMES)
    requires forall k :: k in s.products && s.products[k].sku !in SEEDED_SKUS && s.products[k].category.Some? ==>
               s.categories[s.products[k].category.value].name !in SEEDED_CATEGORY_NAMES
    ensures CleanupSeededData(s, policy).Success?
  {
    var noInventory := DeleteInventoryOfSkus(s, SEEDED_SKUS).value;
    assert InventoryDropped(s, noInventory, SEEDED_SKUS);
    assert SkusUnique(noInventory, SEEDED_SKUS);
    var noProducts := DeleteProductsOfSkus(noInventory, SEEDED_SKUS, policy).value;
    assert ProductsDropped(noInventory, noProducts, SEEDED_SKUS);
    assert NamesUnique(noProducts, SEEDED_CATEGORY_NAMES);
  }
}

=== FILE: data_initializer.dfy ===
/** DataInitializer.run: on a store without categories, seeds three
    categories, six products and one inventory row per product; on any
    other store it does nothing. */
module DataInitializer {
  import opened Outcomes
  import opened Entities
  import opened Repository

  /** A seeded product; `categoryIndex` picks one of the seeded categories. */
  datatype ProductSeed = ProductSeed(name: string, description: string, priceCents: int, sku: string, categoryIndex: nat)

  /** A seeded inventory row for the product at the same position. */
  datatype StockSeed = StockSeed(quantity: JavaInt, minStockLevel: JavaInt)

  const PRODUCT_SEEDS: seq<ProductSeed> := [
    ProductSeed("Laptop", "High-performance laptop", 120000, "ELEC-001", 0),
    ProductSeed("Smartphone", "Latest smartphone model", 80000, "ELEC-002", 0),
    ProductSeed("T-Shirt", "Cotton t-shirt", 2500, "CLTH-001", 1),
    ProductSeed("Jeans", "Denim jeans", 4500, "CLTH-002", 1),
    ProductSeed("Desk", "Office desk", 15000, "FURN-001", 2),
    ProductSeed("Chair", "Office chair", 12000, "FURN-002", 2)
  ]

  const SEEDED_CATEGORY_NAMES: seq<string> := ["Electronics", "Clothing", "Furniture"]

  const SEEDED_CATEGORY_DESCRIPTIONS: seq<string> :=
    ["Electronic devices and accessories", "Apparel and fashion items", "Home and office furniture"]

  const STOCK_SEEDS: seq<StockSeed> := [
    StockSeed(10, 5), StockSeed(15, 5), StockSeed(50, 10), StockSeed(30, 10), StockSeed(5, 2), StockSeed(8, 3)
  ]

  /** m' is m plus entries under the ids lo, ..., hi - 1, all above every
      key m had. */
  ghost predicate Extends<V>(m: map<nat, V>, m': map<nat, V>, lo: nat, hi: nat) {
    && lo <= hi
    && (forall k :: k in m' <==> k in m || lo <= k < hi)
    && (forall k :: k in m ==> k < lo)
    && (forall k :: k in m ==> m'[k] == m[k])
  }

  /** Adding one entry under an id above every key is an extension. */
  lemma ExtendsByOne<V>(m: map<nat, V>, id: nat, v: V)
    requires forall k :: k in m ==> k < id
    ensures Extends(m, m[id := v], id, id + 1)
  {
  }

  /** Two extensions over adjacent id ranges make one. */
  lemma ExtendsTrans<V>(m: map<nat, V>, m1: map<nat, V>, m2: map<nat, V>, lo: nat, mid: nat, hi: nat)
    requires Extends(m, m1, lo, mid) && Extends(m1, m2, mid, hi)
    ensures Extends(m, m2, lo, hi)
  {
  }

  /** Extending by hi - lo new keys adds that many entries. */
  lemma {:induction false} ExtendsSize<V>(m: map<nat, V>, m': map<nat, V>, lo: nat, hi: nat)
    requires Extends(m, m', lo, hi)
    ensures |m'| == |m| + (hi - lo)
    decreases hi - lo
  {
    if lo == hi {
      assert m'.Keys == m.Keys;
    } else {
      var shorter := map k | k in m' && k != hi - 1 :: m'[k];
      assert shorter.Keys == m'.Keys - {hi - 1};
      ExtendsSize(m, shorter, lo, hi - 1);
    }
  }

  /** The product a seed describes, stored under id. */
  function SeededProduct(id: ProductId, seed: ProductSeed, categories: seq<CategoryId>): Product
    requires seed.categoryIndex < |categories|
  {
    Product(id, seed.name, seed.description, seed.priceCents, seed.sku, Some(categories[seed.categoryIndex]))
  }

  /** The row a seed describes for product p, stored under id at time t. */
  function SeededRow(id: InventoryId, p: ProductId, seed: StockSeed, t: nat): Inventory {
    Inventory(id, p, seed.quantity, seed.minStockLevel, t)
  }

  /** The three seeded categories, saved one after another under fresh ids. */
  function SeedCategories(s: Store): (r: Store)
    ensures Extends(s.categories, r.categories, s.nextCategoryId, s.nextCategoryId + 3)
    ensures r.nextCategoryId == s.nextCategoryId + 3
    ensures forall i :: 0 <= i < 3 ==> r.categories[s.nextCategoryId + i].name == SEEDED_CATEGORY_NAMES[i]
    ensures forall i :: 0 <= i < 3 ==>
              r.categories[s.nextCategoryId + i]
              == Category(s.nextCategoryId + i, SEEDED_CATEGORY_NAMES[i], SEEDED_CATEGORY_DESCRIPTIONS[i])
    ensures r.products == s.products && r.records == s.records
    ensures r.nextProductId == s.nextProductId && r.nextRecordId == s.nextRecordId && r.clock == s.clock
    ensures Valid(s) ==> Valid(r)
  {
    var electronics := InsertCategory(s, SEEDED_CATEGORY_NAMES[0], SEEDED_CATEGORY_DESCRIPTIONS[0]);
    var clothing := InsertCategory(electronics.store, SEEDED_CATEGORY_NAMES[1], SEEDED_CATEGORY_DESCRIPTIONS[1]);
    var furniture := InsertCategory(clothing.store, SEEDED_CATEGORY_NAMES[2], SEEDED_CATEGORY_DESCRIPTIONS[2]);
    furniture.store
  }

  /** The product table after saving the seeds in order, seed i under id
      n + i. */
  function SaveProducts(m: map<ProductId, Product>, n: nat, seeds: seq<ProductSeed>, categories: seq<CategoryId>)
    : (r: map<ProductId, Product>)
    requires forall k :: k in m ==> k < n
    requires forall i :: 0 <= i < |seeds| ==> seeds[i].categoryIndex < |categories|
    ensures Extends(m, r, n, n + |seeds|)
    ensures forall i :: 0 <= i < |seeds| ==> r[n + i] == SeededProduct(n + i, seeds[i], categories)
    decreases |seeds|
  {
    if seeds == [] then m
    else
      var saved := m[n := SeededProduct(n, seeds[0], categories)];
      var r := SaveProducts(saved, n + 1, seeds[1..], categories);
      ExtendsByOne(m, n, saved[n]);
      ExtendsTrans(m, saved, r, n, n + 1, n + |seeds|);
      assert forall i :: 1 <= i < |seeds| ==> seeds[1..][i - 1] == seeds[i];
      r
  }

  /** productRepository.saveAll: the seeded products under fresh ids. */
  function InsertProducts(s: Store, seeds: seq<ProductSeed>, categories: seq<CategoryId>): (r: Store)
    requires forall i :: 0 <= i < |seeds| ==> seeds[i].categoryIndex < |categories|
    ensures Extends(s.products, r.products, s.nextProductId, s.nextProductId + |seeds|)
    ensures forall i :: 0 <= i < |seeds| ==>
              r.products[s.nextProductId + i] == SeededProduct(s.nextProductId + i, seeds[i], categories)
    ensures r.nextProductId == s.nextProductId + |seeds|
    ensures r.categories == s.categories && r.records == s.records
    ensures r.nextCategoryId == s.nextCategoryId && r.nextRecordId == s.nextRecordId && r.clock == s.clock
  {
    var n := s.nextProductId;
    var products := SaveProducts(s.products, n, seeds, categories);
    assert forall k :: k in products ==> products[k].id == k by {
      forall k | k in products
        ensures products[k].id == k
      {
        if k !in s.products {
          assert products[n + (k - n)] == SeededProduct(k, seeds[k - n], categories);
        }
      }
    }
    s.(products := products, nextProductId := n + |seeds|)
  }

  /** The inventory table after saving the seeds in order: seed i under id
      n + i, for product p + i, stamped by the i-th tick after clock. */
  function SaveRows(m: map<InventoryId, Inventory>, n: nat, p: ProductId, clock: nat, seeds: seq<StockSeed>)
    : (r: map<InventoryId, Inventory>)
    requires forall k :: k in m ==> k < n
    ensures Extends(m, r, n, n + |seeds|)
    ensures forall i :: 0 <= i < |seeds| ==> r[n + i] == SeededRow(n + i, p + i, seeds[i], clock + i + 1)
    decreases |seeds|
  {
    if seeds == [] then m
    else
      var saved := m[n := SeededRow(n, p, seeds[0], clock + 1)];
      var r := SaveRows(saved, n + 1, p + 1, clock + 1, seeds[1..]);
      ExtendsByOne(m, n, saved[n]);
      ExtendsTrans(m, saved, r, n, n + 1, n + |seeds|);
      assert forall i :: 1 <= i < |seeds| ==> seeds[1..][i - 1] == seeds[i];
      r
  }

  /** inventoryRepository.saveAll: one fresh row per seed, for the products
      p, p + 1, ...; each save ticks the clock. The seeds pass the @Min(0)
      validation, so every save succeeds. */
  function InsertRows(s: Store, p: ProductId, seeds: seq<StockSeed>): (r: Store)
    requires forall i :: 0 <= i < |seeds| ==> seeds[i].quantity >= 0 && seeds[i].minStockLevel >= 0
    ensures Extends(s.records, r.records, s.nextRecordId, s.nextRecordId + |seeds|)
    ensures forall i :: 0 <= i < |seeds| ==>
              r.records[s.nextRecordId + i] == SeededRow(s.nextRecordId + i, p + i, seeds[i], s.clock + i + 1)
    ensures r.nextRecordId == s.nextRecordId + |seeds| && r.clock == s.clock + |seeds|
    ensures r.categories == s.categories && r.products == s.products
    ensures r.nextCategoryId == s.nextCategoryId && r.nextProductId == s.nextProductId
  {
    var n := s.nextRecordId;
    var records := SaveRows(s.records, n, p, s.clock, seeds);
    assert forall k :: k in records ==> records[k].id == k by {
      forall k | k in records
        ensures records[k].id == k
      {
        if k !in s.records {
          assert records[n + (k - n)] == SeededRow(k, p + (k - n), seeds[k - n], s.clock + (k - n) + 1);
        }
      }
    }
    s.(records := records, nextRecordId := n + |seeds|, clock := s.clock + |seeds|)
  }

  /** Saving products whose categories all exist keeps the store valid. */
  lemma InsertProductsValid(s: Store, seeds: seq<ProductSeed>, categories: seq<CategoryId>)
    requires forall i :: 0 <= i < |seeds| ==> seeds[i].categoryIndex < |categories|
    requires Valid(s)
    requires forall i :: 0 <= i < |categories| ==> categories[i] in s.categories
    ensures Valid(InsertProducts(s, seeds, categories))
  {
    var r := InsertProducts(s, seeds, categories);
    var n := s.nextProductId;
    forall k | k in r.products && r.products[k].category.Some?
      ensures r.products[k].category.value in r.categories
    {
      if k !in s.products {
        assert r.products[n + (k - n)] == SeededProduct(k, seeds[k - n], categories);
      }
    }
  }

  /** A row InsertRows adds is the seeded row i = k - n for its id k. */
  lemma InsertedRow(s: Store, p: ProductId, seeds: seq<StockSeed>, k: InventoryId)
    requires forall i :: 0 <= i < |seeds| ==> seeds[i].quantity >= 0 && seeds[i].minStockLevel >= 0
    requires k in InsertRows(s, p, seeds).records && k !in s.records
    ensures s.nextRecordId <= k < s.nextRecordId + |seeds|
    ensures InsertRows(s, p, seeds).records[k]
            == SeededRow(k, p + (k - s.nextRecordId), seeds[k - s.nextRecordId], s.clock + (k - s.nextRecordId) + 1)
  {
    var n := s.nextRecordId;
    assert InsertRows(s, p, seeds).records[n + (k - n)]
           == SeededRow(n + (k - n), p + (k - n), seeds[k - n], s.clock + (k - n) + 1);
  }

  /** Saving one row each for existing products that have none keeps the
      store valid. */
  lemma InsertRowsValid(s: Store, p: ProductId, seeds: seq<StockSeed>)
    requires forall i :: 0 <= i < |seeds| ==> seeds[i].quantity >= 0 && seeds[i].minStockLevel >= 0
    requires Valid(s)
    requires forall k :: p <= k < p + |seeds| ==> k in s.products && !HasRecord(s, k)
    ensures Valid(InsertRows(s, p, seeds))
  {
    var r := InsertRows(s, p, seeds);
    forall k | k in r.records
      ensures r.records[k].product in r.products
      ensures r.records[k].quantity >= 0 && r.records[k].minStockLevel >= 0
      ensures r.records[k].lastUpdated <= r.clock
    {
      if k !in s.records {
        InsertedRow(s, p, seeds, k);
      }
    }
    forall j, k | j in r.records && k in r.records && r.records[j].product == r.records[k].product
      ensures j == k
    {
      if j !in s.records {
        InsertedRow(s, p, seeds, j);
      }
      if k !in s.records {
        InsertedRow(s, p, seeds, k);
      }
    }
  }

  /** What the seeding relies on of its seed lists: one row per product,
      every product in one of the three categories, every row valid. */
  predicate SeedsFit(products: seq<ProductSeed>, stock: seq<StockSeed>) {
    && |products| == |stock|
    && (forall i :: 0 <= i < |products| ==> products[i].categoryIndex < 3)
    && (forall i :: 0 <= i < |stock| ==> stock[i].quantity >= 0 && stock[i].minStockLevel >= 0)
  }

  /** The sample data fits, and every seeded row starts above its minimum. */
  lemma SampleSeedsFit()
    ensures SeedsFit(PRODUCT_SEEDS, STOCK_SEEDS)
    ensures |PRODUCT_SEEDS| == 6
    ensures forall i :: 0 <= i < |STOCK_SEEDS| ==> STOCK_SEEDS[i].quantity > STOCK_SEEDS[i].minStockLevel
  {
  }

  /** The ids the three seeded categories receive. */
  function SeededCategoryIds(s: Store): seq<CategoryId> {
    [s.nextCategoryId, s.nextCategoryId + 1, s.nextCategoryId + 2]
  }

  /** The seeding itself, in the order of the repository calls: the
      categories, then the products pointing at them, then one row per
      product. */
  function Seed(s: Store, products: seq<ProductSeed>, stock: seq<StockSeed>): (r: Store)
    requires SeedsFit(products, stock)
    ensures r.nextCategoryId == s.nextCategoryId + 3
    ensures r.nextProductId == s.nextProductId + |products|
    ensures r.nextRecordId == s.nextRecordId + |stock|
    ensures r.clock == s.clock + |stock|
  {
    var withCategories := SeedCategories(s);
    var withProducts := InsertProducts(withCategories, products, SeededCategoryIds(s));
    InsertRows(withProducts, s.nextProductId, stock)
  }

  /** Seeding adds the three named categories and keeps the old ones. */
  lemma SeedSavesCategories(s: Store, products: seq<ProductSeed>, stock: seq<StockSeed>)
    requires SeedsFit(products, stock)
    ensures var r := Seed(s, products, stock);
            && Extends(s.categories, r.categories, s.nextCategoryId, s.nextCategoryId + 3)
            && forall i :: 0 <= i < 3 ==> r.categories[s.nextCategoryId + i].name == SEEDED_CATEGORY_NAMES[i]
  {
    var withCategories := SeedCategories(s);
    var withProducts := InsertProducts(withCategories, products, SeededCategoryIds(s));
    assert Seed(s, products, stock).categories == withCategories.categories;
  }

  /** Seeding adds product i under the i-th fresh id, in the i-th
      category slot it names, and keeps the old products. */
  lemma SeedSavesProducts(s: Store, products: seq<ProductSeed>, stock: seq<StockSeed>)
    requires SeedsFit(products, stock)
    ensures var r := Seed(s, products, stock);
            && Extends(s.products, r.products, s.nextProductId, s.nextProductId + |products|)
            && forall i :: 0 <= i < |products| ==>
                 r.products[s.nextProductId + i]
                 == SeededProduct(s.nextProductId + i, products[i], SeededCategoryIds(s))
  {
    var withCategories := SeedCategories(s);
    var withProducts := InsertProducts(withCategories, products, SeededCategoryIds(s));
    assert Seed(s, products, stock).products == withProducts.products;
  }

  /** Seeding adds row i, for product i, under the i-th fresh id and
      stamped by the i-th tick, and keeps the old rows. */
  lemma SeedSavesRows(s: Store, products: seq<ProductSeed>, stock: seq<StockSeed>)
    requires SeedsFit(products, stock)
    ensures var r := Seed(s, products, stock);
            && Extends(s.records, r.records, s.nextRecordId, s.nextRecordId + |stock|)
            && forall i :: 0 <= i < |stock| ==>
                 r.records[s.nextRecordId + i]
                 == SeededRow(s.nextRecordId + i, s.nextProductId + i, stock[i], s.clock + i + 1)
  {
    var withCategories := SeedCategories(s);
    var withProducts := InsertProducts(withCategories, products, SeededCategoryIds(s));
    assert withProducts.records == s.records;
  }

  /** t holds s's categories plus three new ones named by names. */
  ghost predicate CategoriesSeeded(s: Store, t: Store, names: seq<string>) {
    && |names| == 3
    && Extends(s.categories, t.categories, s.nextCategoryId, s.nextCategoryId + 3)
    && (forall i :: 0 <= i < 3 ==> t.categories[s.nextCategoryId + i].name == names[i])
  }

  /** t holds s's products plus product i under the i-th fresh id. */
  ghost predicate ProductsSeeded(s: Store, t: Store, products: seq<ProductSeed>) {
    && (forall i :: 0 <= i < |products| ==> products[i].categoryIndex < 3)
    && Extends(s.products, t.products, s.nextProductId, s.nextProductId + |products|)
    && (forall i :: 0 <= i < |products| ==>
          t.products[s.nextProductId + i] == SeededProduct(s.nextProductId + i, products[i], SeededCategoryIds(s)))
  }

  /** t holds s's rows plus row i, for product i, under the i-th fresh id. */
  ghost predicate RowsSeeded(s: Store, t: Store, stock: seq<StockSeed>) {
    && Extends(s.records, t.records, s.nextRecordId, s.nextRecordId + |stock|)
    && (forall i :: 0 <= i < |stock| ==>
          t.records[s.nextRecordId + i] == SeededRow(s.nextRecordId + i, s.nextProductId + i, stock[i], s.clock + i + 1))
  }

  /** t is s after seeding the given products and rows into the three
      categories named by names: what the three lemmas above establish of
      Seed, gathered in one place. */
  ghost predicate SeededFrom(s: Store, t: Store, products: seq<ProductSeed>, stock: seq<StockSeed>, names: seq<string>) {
    && SeedsFit(products, stock)
    && CategoriesSeeded(s, t, names)
    && ProductsSeeded(s, t, products)
    && RowsSeeded(s, t, stock)
  }

  /** Seed seeds. */
  lemma SeedIsSeededFrom(s: Store, products: seq<ProductSeed>, stock: seq<StockSeed>)
    requires SeedsFit(products, stock)
    ensures SeededFrom(s, Seed(s, products, stock), products, stock, SEEDED_CATEGORY_NAMES)
  {
    SeedSavesCategories(s, products, stock);
    SeedSavesProducts(s, products, stock);
    SeedSavesRows(s, products, stock);
  }

  /** Seeding a valid store leaves it valid. */
  lemma SeedValid(s: Store, products: seq<ProductSeed>, stock: seq<StockSeed>)
    requires SeedsFit(products, stock)
    requires Valid(s)
    ensures Valid(Seed(s, products, stock))
  {
    var withCategories := SeedCategories(s);
    InsertProductsValid(withCategories, products, SeededCategoryIds(s));
    var withProducts := InsertProducts(withCategories, products, SeededCategoryIds(s));
    InsertRowsValid(withProducts, s.nextProductId, stock);
  }

  /** Seeding the sample data keeps a valid store valid. */
  lemma SampleSeedValid(s: Store)
    ensures Valid(s) ==> Valid(Seed(s, PRODUCT_SEEDS, STOCK_SEEDS))
  {
    if Valid(s) {
      SampleSeedsFit();
      SeedValid(s, PRODUCT_SEEDS, STOCK_SEEDS);
    }
  }

  /** run: seeding is skipped as soon as any category exists. */
  function Run(s: Store): (r: Store)
    ensures |s.categories| > 0 ==> r == s
    ensures |s.categories| == 0 ==> r == Seed(s, PRODUCT_SEEDS, STOCK_SEEDS)
    ensures |s.categories| == 0 ==> SeededFrom(s, r, PRODUCT_SEEDS, STOCK_SEEDS, SEEDED_CATEGORY_NAMES)
    ensures Valid(s) ==> Valid(r)
  {
    if |s.categories| > 0 then s
    else
      SampleSeedsFit();
      SeedIsSeededFrom(s, PRODUCT_SEEDS, STOCK_SEEDS);
      SampleSeedValid(s);
      Seed(s, PRODUCT_SEEDS, STOCK_SEEDS)
  }

  /** Running the initializer twice seeds once: the first run leaves
      three categories behind, so the second one skips. */
  lemma RunIdempotent(s: Store)
    ensures Run(Run(s)) == Run(s)
  {
    if |s.categories| == 0 {
      SampleSeedsFit();
      SeedSavesCategories(s, PRODUCT_SEEDS, STOCK_SEEDS);
      ExtendsSize(s.categories, Run(s).categories, s.nextCategoryId, s.nextCategoryId + 3);
    }
  }

  /** The initializer keeps the store invariant. */
  lemma RunValid(s: Store)
    requires Valid(s)
    ensures Valid(Run(s))
  {
    if |s.categories| == 0 {
      SampleSeedsFit();
      SeedValid(s, PRODUCT_SEEDS, STOCK_SEEDS);
    }
  }

  /** Seeding adds exactly three categories, one product per product seed
      and one row per stock seed. */
  lemma SeedSizes(s: Store, products: seq<ProductSeed>, stock: seq<StockSeed>)
    requires SeedsFit(products, stock)
    ensures |Seed(s, products, stock).categories| == |s.categories| + 3
    ensures |Seed(s, products, stock).products| == |s.products| + |products|
    ensures |Seed(s, products, stock).records| == |s.records| + |stock|
  {
    var r := Seed(s, products, stock);
    SeedSavesCategories(s, products, stock);
    ExtendsSize(s.categories, r.categories, s.nextCategoryId, s.nextCategoryId + 3);
    SeedSavesProducts(s, products, stock);
    ExtendsSize(s.products, r.products, s.nextProductId, s.nextProductId + |products|);
    SeedSavesRows(s, products, stock);
    ExtendsSize(s.records, r.records, s.nextRecordId, s.nextRecordId + |stock|);
  }

  /** A run on a store without categories adds exactly three categories,
      six products and six inventory rows. */
  lemma RunSizes(s: Store)
    requires |s.categories| == 0
    ensures |Run(s).categories| == 3
    ensures |Run(s).products| == |s.products| + 6
    ensures |Run(s).records| == |s.records| + 6
  {
    SampleSeedsFit();
    SeedSizes(s, PRODUCT_SEEDS, STOCK_SEEDS);
  }

  /** When every stock seed starts above its minimum, seeding adds no
      low-stock row: the low-stock query answers the same rows as before. */
  lemma SeedAddsNoLowStock(s: Store, products: seq<ProductSeed>, stock: seq<StockSeed>)
    requires SeedsFit(products, stock)
    requires forall i :: 0 <= i < |stock| ==> stock[i].quantity > stock[i].minStockLevel
    ensures forall x :: x in FindLowStockItems(Seed(s, products, stock)) <==> x in FindLowStockItems(s)
  {
    SeedSavesRows(s, products, stock);
    var r := Seed(s, products, stock);
    ExtensionKeepsLowStock(s, r, stock);
    LowStockListsAgree(s, r);
  }

  /** Every row at or below its minimum in an extension of a table by
      seeded rows that all start above it was already in the table. */
  lemma ExtensionKeepsLowStock(s: Store, r: Store, stock: seq<StockSeed>)
    requires Extends(s.records, r.records, s.nextRecordId, s.nextRecordId + |stock|)
    requires forall i :: 0 <= i < |stock| ==>
               r.records[s.nextRecordId + i] == SeededRow(s.nextRecordId + i, s.nextProductId + i, stock[i], s.clock + i + 1)
    requires forall i :: 0 <= i < |stock| ==> stock[i].quantity > stock[i].minStockLevel
    ensures forall k :: k in r.records && IsLowStock(r.records[k]) ==> k in s.records
  {
    var n := s.nextRecordId;
    forall k | k in r.records && k !in s.records
      ensures !IsLowStock(r.records[k])
    {
      assert r.records[n + (k - n)] == SeededRow(n + (k - n), s.nextProductId + (k - n), stock[k - n], s.clock + (k - n) + 1);
    }
  }

  /** A store that keeps every row of another and adds none at or below its
      minimum has the same low-stock list members. */
  lemma LowStockListsAgree(a: Store, b: Store)
    requires forall k :: k in a.records ==> k in b.records && b.records[k] == a.records[k]
    requires forall k :: k in b.records && IsLowStock(b.records[k]) ==> k in a.records
    ensures forall x :: x in FindLowStockItems(b) <==> x in FindLowStockItems(a)
  {
    forall x | x in b.records.Values && IsLowStock(x)
      ensures x in a.records.Values
    {
      var k :| k in b.records && b.records[k] == x;
    }
    forall x | x in a.records.Values
      ensures x in b.records.Values
    {
      var k :| k in a.records && a.records[k] == x;
    }
  }

  /** The sample data adds no low-stock row. */
  lemma RunAddsNoLowStock(s: Store)
    ensures forall x :: x in FindLowStockItems(Run(s)) <==> x in FindLowStockItems(s)
  {
    if |s.categories| == 0 {
      SampleSeedsFit();
      SeedAddsNoLowStock(s, PRODUCT_SEEDS, STOCK_SEEDS);
    }
  }
}

=== FILE: entities.dfy ===
/** The three persistent entities: Category, Product and the Inventory row
    that tracks one product's stock. */
module Entities {
  import opened Outcomes

  const JAVA_INT_MIN: int := -0x8000_0000
  const JAVA_INT_MAX: int := 0x7fff_ffff

  /** A Java `int`: the width of quantity, minStockLevel and every amount. */
  type JavaInt = x: int | -0x8000_0000 <= x <= 0x7fff_ffff

  /** Java's 32-bit two's-complement wrap-around of an exact integer result. */
  function WrapInt(x: int): (r: JavaInt)
    ensures JAVA_INT_MIN <= x <= JAVA_INT_MAX ==> r == x
    ensures JAVA_INT_MAX < x <= 2 * JAVA_INT_MAX + 1 ==> r == x - 0x1_0000_0000
  {
    (x + 0x8000_0000) % 0x1_0000_0000 - 0x8000_0000
  }

  type CategoryId = nat
  type ProductId = nat
  type InventoryId = nat

  /** A reference to another entity as a request body carries it: no object
      at all, an object without an id (an instance never stored), or an
      object carrying the id of a stored entity. */
  datatype Reference = NoReference | Unsaved | ById(id: nat)

  datatype Category = Category(id: CategoryId, name: string, description: string)

  /** A product; the price is kept in cents and the category is optional. */
  datatype Product = Product(
    id: ProductId,
    name: string,
    description: string,
    priceCents: int,
    sku: string,
    category: Option<CategoryId>)

  /** An inventory row: exactly one product, its quantity on hand, the level
      at or below which it counts as low stock, and the tick of its last save. */
  datatype Inventory = Inventory(
    id: InventoryId,
    product: ProductId,
    quantity: JavaInt,
    minStockLevel: JavaInt,
    lastUpdated: nat)
}

=== FILE: inventory_list.dfy ===
/** The inventory page: the status badge and row highlight of each row, the
    Remove button's enabled state, and the stock adjustment dialog, which
    sends addStock or removeStock for the row's product. */
module InventoryList {
  import opened Outcomes
  import opened Entities
  import opened Repository
  import opened InventoryService

  /** The status column of a row. */
  datatype Badge = LowStock | InStock

  /** The direction the adjustment dialog was opened for. */
  datatype Mode = Add | Remove

  /** The amount the dialog opens with. */
  const DEFAULT_AMOUNT: JavaInt := 1

  /** The status badge: "Low Stock" at or below the minimum. */
  function StatusBadge(item: Inventory): Badge {
    if item.quantity <= item.minStockLevel then LowStock else InStock
  }

  /** The row carries the low-stock highlight. */
  predicate RowHighlighted(item: Inventory) {
    item.quantity <= item.minStockLevel
  }

  /** The Remove button is enabled: it is disabled at quantity zero or below. */
  predicate RemoveEnabled(item: Inventory) {
    !(item.quantity <= 0)
  }

  /** The amount field's value after an edit: the parsed integer, or 1 when
      the text does not parse (None) or parses to 0, which is falsy. */
  function AmountField(parsed: Option<int>): (r: int)
    ensures r != 0
    ensures r > 0 <==> parsed.None? || parsed.value >= 0
    ensures parsed.Some? && parsed.value != 0 ==> r == parsed.value
  {
    if parsed.None? || parsed.value == 0 then 1 else parsed.value
  }

  /** The dialog's confirm button: addStock or removeStock for the row's
      product with the entered amount. */
  function SubmitAdjustment(s: Store, mode: Mode, item: Inventory, amount: JavaInt): (r: Result<Saved<Inventory>>)
    ensures r.Success? ==>
              && Rewritten(s, r.value.store, r.value.entity)
              && r.value.entity.product == item.product
              && r.value.entity.minStockLevel == s.records[r.value.entity.id].minStockLevel
    ensures r.Success? && mode == Add ==>
              r.value.entity.quantity == s.records[r.value.entity.id].quantity + amount
              > s.records[r.value.entity.id].quantity
    ensures r.Success? && mode == Remove ==>
              0 <= r.value.entity.quantity == s.records[r.value.entity.id].quantity - amount
              < s.records[r.value.entity.id].quantity
    ensures amount <= 0 ==> r == Failure(InvalidAmount)
    ensures r.Success? && Valid(s) ==> Valid(r.value.store)
  {
    match mode
    case Add => AddStock(s, item.product, amount)
    case Remove => RemoveStock(s, item.product, amount)
  }

  /** On a stored row the badge says "Low Stock" exactly when the row is on
      the low-stock list, and the highlight agrees with the badge. */
  lemma BadgeMatchesLowStockList(s: Store, item: Inventory)
    requires item in s.records.Values
    ensures StatusBadge(item) == LowStock <==> item in GetLowStockItems(s)
    ensures RowHighlighted(item) <==> StatusBadge(item) == LowStock
  {
  }

  /** Every amount the field can hold other than a negative one passes the
      service's positivity check; a negative one is refused whatever the
      dialog's mode, before any lookup. */
  lemma FieldAmountChecked(s: Store, mode: Mode, item: Inventory, parsed: Option<int>)
    requires JAVA_INT_MIN <= AmountField(parsed) <= JAVA_INT_MAX
    ensures AmountField(parsed) < 0 ==> SubmitAdjustment(s, mode, item, AmountField(parsed)) == Failure(InvalidAmount)
    ensures AmountField(parsed) < 0 <==> parsed.Some? && parsed.value < 0
  {
  }

  /** For a stored row the Remove button is disabled exactly when every
      removal the dialog could send is refused for insufficient stock. */
  lemma RemoveDisabledIffNothingToRemove(s: Store, item: Inventory)
    requires Valid(s) && item in s.records.Values
    ensures !RemoveEnabled(item) <==>
              forall amount: JavaInt :: amount > 0 ==>
                SubmitAdjustment(s, Remove, item, amount) == Failure(InsufficientStock)
  {
    var k :| k in s.records && s.records[k] == item;
    if RemoveEnabled(item) {
      assert SubmitAdjustment(s, Remove, item, 1).Success?;
    }
  }

  /** The dialog's first amount: removing it succeeds exactly when Remove is
      enabled, and adding it succeeds unless the quantity is the largest Java
      int, where the sum wraps and the save is refused. */
  lemma DefaultAmountOutcome(s: Store, item: Inventory)
    requires Valid(s) && item in s.records.Values
    ensures SubmitAdjustment(s, Remove, item, DEFAULT_AMOUNT).Success? <==> RemoveEnabled(item)
    ensures SubmitAdjustment(s, Add, item, DEFAULT_AMOUNT).Success? <==> item.quantity < JAVA_INT_MAX
    ensures item.quantity == JAVA_INT_MAX ==>
              SubmitAdjustment(s, Add, item, DEFAULT_AMOUNT) == Failure(ConstraintViolation)
  {
    var k :| k in s.records && s.records[k] == item;
  }

  /** Adding an amount in the dialog and then removing the same amount from
      the refreshed row restores the row's quantity and minimum. */
  lemma AddThenRemoveInDialog(s: Store, item: Inventory, amount: JavaInt)
    requires Valid(s)
    requires SubmitAdjustment(s, Add, item, amount).Success?
    ensures var added := SubmitAdjustment(s, Add, item, amount).value;
            var removed := SubmitAdjustment(added.store, Remove, added.entity, amount);
            && removed.Success?
            && removed.value.entity.id == added.entity.id
            && removed.value.entity.quantity == s.records[added.entity.id].quantity
            && removed.value.entity.minStockLevel == s.records[added.entity.id].minStockLevel
  {
    AddThenRemoveRestores(s, item.product, amount);
  }
}

=== FILE: inventory_service.dfy ===
/** InventoryService: reads of inventory rows, creation with the
    one-row-per-product check, absolute updates, and the stock adjustment
    protocol (addStock / removeStock). */
module InventoryService {
  import opened Outcomes
  import opened Entities
  import opened Repository
  import ProductService

  /** getInventoryById: the stored row, or NotFound. */
  function GetInventoryById(s: Store, id: InventoryId): (r: Result<Inventory>)
    ensures r.Success? <==> id in s.records
    ensures r.Success? ==> r.value == s.records[id] && r.value.id == id
    ensures r.Failure? ==> r.error == NotFound
  {
    if id in s.records then Success(s.records[id]) else Failure(NotFound)
  }

  /** The lookup every product-keyed operation starts with: the product must
      exist, then its row must exist; either absence is NotFound. */
  function LocateRecord(s: Store, product: ProductId): (r: Result<InventoryId>)
    ensures r.Success? ==> r.value in s.records && s.records[r.value].product == product
    ensures r.Success? ==> forall k :: k in s.records && s.records[k].product == product ==> k == r.value
    ensures r.Success? ==> product in s.products
    ensures OneRecordPerProduct(s) ==> (r.Success? <==> product in s.products && HasRecord(s, product))
    ensures !(product in s.products && HasRecord(s, product)) ==> r == Failure(NotFound)
  {
    var p :- ProductService.GetProductById(s, product);
    var found :- FindByProduct(s, p.id);
    if found.None? then Failure(NotFound) else Success(found.value)
  }

  /** getInventoryByProductId: the row of a product; NotFound when the
      product is unknown or has no row. */
  function GetInventoryByProductId(s: Store, product: ProductId): (r: Result<Inventory>)
    ensures !(product in s.products && HasRecord(s, product)) ==> r == Failure(NotFound)
    ensures Valid(s) && product in s.products && HasRecord(s, product) ==> r.Success?
    ensures r.Success? ==> r.value in s.records.Values && r.value.product == product
  {
    var id :- LocateRecord(s, product);
    Success(s.records[id])
  }

  /** getLowStockItems: every stored row at or below its minimum, and no other. */
  function GetLowStockItems(s: Store): (r: seq<Inventory>)
    ensures forall x :: x in r <==> x in s.records.Values && x.quantity <= x.minStockLevel
    ensures forall i, j :: 0 <= i < j < |r| ==> r[i].id != r[j].id
  {
    FindLowStockItems(s)
  }

  /** createInventory. A row without a product fails validation (@NotNull).
      A product object without an id is not looked up: the row passes or
      fails @Min validation, and then the save refuses the reference to an
      unsaved product, which the mapping does not cascade. With a product id:
      the product must exist and must not have a row yet; then the row is
      validated (@Min) and stored under a fresh id. */
  function CreateInventory(s: Store, product: Reference, quantity: JavaInt, minStockLevel: JavaInt)
    : (r: Result<Saved<Inventory>>)
    ensures product.NoReference? ==> r == Failure(ConstraintViolation)
    ensures product.Unsaved? ==>
              r == Failure(if quantity < 0 || minStockLevel < 0 then ConstraintViolation else UnsavedReference)
    ensures product.ById? && product.id !in s.products ==> r == Failure(NotFound)
    ensures product.ById? && product.id in s.products && HasRecord(s, product.id) && OneRecordPerProduct(s) ==>
              r == Failure(DuplicateRecord)
    ensures r.Success? <==>
              && product.ById? && product.id in s.products && !HasRecord(s, product.id)
              && quantity >= 0 && minStockLevel >= 0
    ensures r.Success? ==>
              var rec := r.value.entity;
              && rec.id !in s.records
              && rec.product == product.id
              && rec.quantity == quantity && rec.minStockLevel == minStockLevel
              && r.value.store.records == s.records[rec.id := rec]
              && r.value.store.products == s.products
              && r.value.store.categories == s.categories
    ensures r.Success? && Valid(s) ==> Valid(r.value.store)
  {
    match product
    case NoReference => Failure(ConstraintViolation)
    case Unsaved => Failure(if quantity < 0 || minStockLevel < 0 then ConstraintViolation else UnsavedReference)
    case ById(id) =>
      var p :- ProductService.GetProductById(s, id);
      var existing :- FindByProduct(s, p.id);
      if existing.Some? then Failure(DuplicateRecord)
      else InsertRow(s, p.id, quantity, minStockLevel)
  }

  /** A create for a product that already has a row is refused, so the
      one-row-per-product invariant survives every create. */
  lemma CreateNeverDuplicates(s: Store, product: ProductId, quantity: JavaInt, minStockLevel: JavaInt)
    requires Valid(s)
    requires product in s.products && HasRecord(s, product)
    ensures CreateInventory(s, ById(product), quantity, minStockLevel) == Failure(DuplicateRecord)
  {
  }

  /** updateInventory: overwrites exactly quantity and minStockLevel of the
      row with this id; the row is validated on save. */
  function UpdateInventory(s: Store, id: InventoryId, quantity: JavaInt, minStockLevel: JavaInt)
    : (r: Result<Saved<Inventory>>)
    ensures id !in s.records ==> r == Failure(NotFound)
    ensures id in s.records ==> (r.Success? <==> quantity >= 0 && minStockLevel >= 0)
    ensures id in s.records && r.Failure? ==> r.error == ConstraintViolation
    ensures r.Success? ==>
              && r.value.entity.id == id
              && r.value.entity.quantity == quantity
              && r.value.entity.minStockLevel == minStockLevel
    ensures r.Success? && SameValues(s, id, quantity, minStockLevel) ==>
              r.value.store == s && r.value.entity == s.records[id]
    ensures r.Success? && !SameValues(s, id, quantity, minStockLevel) ==>
              Rewritten(s, r.value.store, r.value.entity)
    ensures r.Success? && Valid(s) ==> Valid(r.value.store)
  {
    var current :- GetInventoryById(s, id);
    UpdateRow(s, current.id, quantity, minStockLevel)
  }

  /** updateStock: sets the quantity of a product's row to an absolute
      value, keeping its minimum. The service does no sign check; the save's
      validation refuses a negative quantity. */
  function UpdateStock(s: Store, product: ProductId, quantity: JavaInt): (r: Result<Saved<Inventory>>)
    ensures !(product in s.products && HasRecord(s, product)) ==> r == Failure(NotFound)
    ensures Valid(s) && product in s.products && HasRecord(s, product) ==> (r.Success? <==> quantity >= 0)
    ensures r.Success? ==>
              var rec := r.value.entity;
              && rec.id in s.records
              && rec.product == product
              && rec.quantity == quantity
              && rec.minStockLevel == s.records[rec.id].minStockLevel
              && (quantity == s.records[rec.id].quantity ==> r.value.store == s && rec == s.records[rec.id])
              && (quantity != s.records[rec.id].quantity ==> Rewritten(s, r.value.store, rec))
    ensures r.Success? && Valid(s) ==> Valid(r.value.store)
  {
    var id :- LocateRecord(s, product);
    UpdateRow(s, id, quantity, s.records[id].minStockLevel)
  }

  /** addStock. A non-positive amount is refused before any lookup. The sum
      is a Java int addition: on overflow it wraps to a negative value, which
      the save's @Min(0) validation then refuses. */
  function AddStock(s: Store, product: ProductId, amount: JavaInt): (r: Result<Saved<Inventory>>)
    ensures amount <= 0 ==> r == Failure(InvalidAmount)
    ensures amount > 0 && !(product in s.products && HasRecord(s, product)) ==> r == Failure(NotFound)
    ensures Valid(s) && amount > 0 ==>
              forall k :: k in s.records && s.records[k].product == product ==>
                (r.Success? <==> s.records[k].quantity + amount <= JAVA_INT_MAX)
    ensures Valid(s) && amount > 0 && product in s.products && HasRecord(s, product) && r.Failure? ==>
              r.error == ConstraintViolation
    ensures r.Success? ==>
              var rec := r.value.entity;
              && Rewritten(s, r.value.store, rec)
              && rec.product == product
              && rec.quantity == s.records[rec.id].quantity + amount
              && rec.minStockLevel == s.records[rec.id].minStockLevel
    ensures r.Success? && Valid(s) ==> Valid(r.value.store)
    ensures r.Success? && Valid(s) ==> forall k :: k in s.records ==> s.records[k].lastUpdated < r.value.entity.lastUpdated
  {
    if amount <= 0 then Failure(InvalidAmount)
    else
      var id :- LocateRecord(s, product);
      var current := s.records[id];
      UpdateRow(s, id, WrapInt(current.quantity + amount), current.minStockLevel)
  }

  /** removeStock. A non-positive amount is refused before any lookup; a
      removal larger than the quantity on hand is refused; removing exactly
      the quantity leaves zero. */
  function RemoveStock(s: Store, product: ProductId, amount: JavaInt): (r: Result<Saved<Inventory>>)
    ensures amount <= 0 ==> r == Failure(InvalidAmount)
    ensures amount > 0 && !(product in s.products && HasRecord(s, product)) ==> r == Failure(NotFound)
    ensures Valid(s) && amount > 0 ==>
              forall k :: k in s.records && s.records[k].product == product ==>
                && (r == Failure(InsufficientStock) <==> s.records[k].quantity < amount)
                && (r.Success? <==> amount <= s.records[k].quantity)
    ensures r.Success? ==>
              var rec := r.value.entity;
              && Rewritten(s, r.value.store, rec)
              && rec.product == product
              && rec.quantity == s.records[rec.id].quantity - amount
              && rec.quantity >= 0
              && rec.minStockLevel == s.records[rec.id].minStockLevel
    ensures r.Success? && Valid(s) ==> Valid(r.value.store)
    ensures r.Success? && Valid(s) ==> forall k :: k in s.records ==> s.records[k].lastUpdated < r.value.entity.lastUpdated
  {
    if amount <= 0 then Failure(InvalidAmount)
    else
      var id :- LocateRecord(s, product);
      var current := s.records[id];
      if current.quantity < amount then Failure(InsufficientStock)
      else UpdateRow(s, id, current.quantity - amount, current.minStockLevel)
  }

  /** deleteInventory: removes only the row with this id; products and
      categories are untouched. */
  function DeleteInventory(s: Store, id: InventoryId): (r: Result<Store>)
    ensures r.Failure? <==> id !in s.records
    ensures r.Failure? ==> r.error == NotFound
    ensures r.Success? ==>
              && r.value.records == s.records - {id}
              && r.value.products == s.products
              && r.value.categories == s.categories
    ensures r.Success? && Valid(s) ==> Valid(r.value)
  {
    var current :- GetInventoryById(s, id);
    Success(s.(records := s.records - {current.id}))
  }

  /** Adding n and then removing n gives back the original quantity and
      minimum; only the timestamp differs. */
  lemma AddThenRemoveRestores(s: Store, product: ProductId, n: JavaInt)
    requires Valid(s)
    requires AddStock(s, product, n).Success?
    ensures var added := AddStock(s, product, n).value;
            var removed := RemoveStock(added.store, product, n);
            && removed.Success?
            && removed.value.entity.id == added.entity.id
            && removed.value.store.records
               == s.records[added.entity.id := s.records[added.entity.id].(lastUpdated := removed.value.store.clock)]
  {
    var added := AddStock(s, product, n).value;
    var id := added.entity.id;
    var before := s.records[id];
    assert Valid(added.store);
    assert added.store.records[id] == added.entity;
    assert added.entity.quantity == before.quantity + n;
    var removed := RemoveStock(added.store, product, n);
    assert removed.Success?;
    assert removed.value.entity.id == id;
    assert removed.value.entity == before.(lastUpdated := removed.value.store.clock);
  }
}

=== FILE: low_stock_items.dfy ===
/** The low-stock page: the rows of the low-stock query, their shortage
    column, and the Restock action, which adds a suggested amount. */
module LowStockItems {
  import opened Outcomes
  import opened Entities
  import opened Repository
  import opened InventoryService

  /** The amount the Restock dialog opens with: the gap to the minimum, and
      at least 1 when there is no gap. */
  function SuggestedRestock(item: Inventory): (r: int)
    ensures r >= 1
    ensures item.quantity < item.minStockLevel ==> item.quantity + r == item.minStockLevel
    ensures item.quantity >= item.minStockLevel ==> r == 1
  {
    if item.minStockLevel - item.quantity > 1 then item.minStockLevel - item.quantity else 1
  }

  /** The shortage column: the minimum less the quantity, not clamped. */
  function Shortage(item: Inventory): int {
    item.minStockLevel - item.quantity
  }

  /** Restock, confirmed with the suggested amount: addStock for the row's
      product. */
  function Restock(s: Store, item: Inventory): (r: Result<Saved<Inventory>>)
    requires item.quantity >= 0
    ensures r.Success? ==>
              && Rewritten(s, r.value.store, r.value.entity)
              && r.value.entity.product == item.product
              && r.value.entity.quantity == s.records[r.value.entity.id].quantity + SuggestedRestock(item)
              && r.value.entity.quantity > s.records[r.value.entity.id].quantity
              && r.value.entity.minStockLevel == s.records[r.value.entity.id].minStockLevel
    ensures r.Success? && Valid(s) ==> Valid(r.value.store)
  {
    AddStock(s, item.product, SuggestedRestock(item))
  }

  /** Every row of the low-stock list has a non-negative shortage, so the
      unclamped column agrees with max(0, minimum - quantity). */
  lemma ShortageNonNegative(s: Store)
    ensures forall x :: x in FindLowStockItems(s) ==> Shortage(x) >= 0
  {
  }

  /** On a low-stock row the suggestion is the shortage when there is one,
      and 1 at the boundary quantity == minimum. */
  lemma SuggestionCoversShortage(s: Store, item: Inventory)
    requires item in FindLowStockItems(s)
    ensures Shortage(item) > 0 ==> SuggestedRestock(item) == Shortage(item)
    ensures Shortage(item) == 0 ==> SuggestedRestock(item) == 1
  {
  }

  /** Restocking a row below its minimum brings it exactly to the minimum,
      which the low-stock query still reports. */
  lemma RestockBelowMinimum(s: Store, item: Inventory)
    requires Valid(s) && item in s.records.Values
    requires item.quantity < item.minStockLevel
    ensures Restock(s, item).Success?
    ensures Restock(s, item).value.entity.quantity == item.minStockLevel
    ensures IsLowStock(Restock(s, item).value.entity)
  {
    StoredRowIsFound(s, item);
  }

  /** Restocking a row at its minimum adds one, which takes it off the
      low-stock list, unless the minimum is the largest Java int: then the
      sum wraps and the save is refused. */
  lemma RestockAtMinimum(s: Store, item: Inventory)
    requires Valid(s) && item in s.records.Values
    requires item.quantity == item.minStockLevel
    ensures item.quantity < JAVA_INT_MAX ==> Restock(s, item).Success?
    ensures item.quantity < JAVA_INT_MAX ==> !IsLowStock(Restock(s, item).value.entity)
    ensures item.quantity == JAVA_INT_MAX ==> Restock(s, item) == Failure(ConstraintViolation)
  {
    StoredRowIsFound(s, item);
  }

  /** A stored row's product exists and owns that row. */
  lemma StoredRowIsFound(s: Store, item: Inventory)
    requires Valid(s) && item in s.records.Values
    ensures item.product in s.products && HasRecord(s, item.product)
    ensures item.id in s.records && s.records[item.id] == item
    ensures item.quantity >= 0
  {
    var k :| k in s.records && s.records[k] == item;
  }
}

=== FILE: outcomes.dfy ===
/** Typed outcomes of the stock-management services. Every operation either
    yields a value or fails with one of the errors below; a failed operation
    yields no store at all, so no partial write can be observed. */
module Outcomes {

  datatype Option<+T> = None | Some(value: T)

  /** The failures the services and the store raise. */
  datatype Error =
    | NotFound            // an id, or a product without an inventory row
    | InvalidAmount       // a stock delta that is not positive
    | InsufficientStock   // a removal larger than the quantity on hand
    | DuplicateRecord     // a second inventory row for one product
    | CategoryInUse       // deleting a category that products still reference
    | ConstraintViolation // bean validation (@Min, @NotNull) refusing a row on save
    | ForeignKeyViolation // the database refusing to delete a referenced row
    | NonUniqueResult     // a single-result finder that matched several rows
    | UnsavedReference    // a save of a row that points at an object never stored

  datatype Result<+T> = Success(value: T) | Failure(error: Error) {

    predicate IsFailure() {
      Failure?
    }

    function PropagateFailure<U>(): Result<U>
      requires Failure?
    {
      Failure(error)
    }

    function Extract(): T
      requires Success?
    {
      value
    }
  }
}

=== FILE: product_list.dfy ===
/** The product page's category filter: with no category chosen the whole
    list is shown; otherwise only the products filed under the chosen one. */
module ProductList {
  import opened Outcomes
  import opened Collections
  import opened Entities
  import opened Repository
  import ProductService

  /** A product is filed under category c: it has a category and its id is c. */
  predicate InCategory(p: Product, c: CategoryId) {
    p.category == Some(c)
  }

  /** The filtered list; `selected` is None for "All Categories". */
  function FilterProducts(products: seq<Product>, selected: Option<CategoryId>): (r: seq<Product>)
    ensures selected.None? ==> r == products
    ensures selected.Some? ==> forall x :: x in r <==> x in products && InCategory(x, selected.value)
    ensures |r| <= |products|
  {
    match selected
    case None => products
    case Some(c) => Filter(products, (p: Product) => InCategory(p, c))
  }

  /** The filter keeps the page's order: filtering a split list is filtering
      each part. */
  lemma FilterProductsAppend(a: seq<Product>, b: seq<Product>, selected: Option<CategoryId>)
    ensures FilterProducts(a + b, selected) == FilterProducts(a, selected) + FilterProducts(b, selected)
  {
    if selected.Some? {
      FilterAppend(a, b, (p: Product) => InCategory(p, selected.value));
    }
  }

  /** An uncategorised product survives only "All Categories". */
  lemma UncategorisedOnlyUnderAll(products: seq<Product>, selected: Option<CategoryId>, p: Product)
    requires p in products && p.category.None?
    ensures p in FilterProducts(products, selected) <==> selected.None?
  {
  }

  /** Filtering twice by the same category changes nothing more. */
  lemma {:induction false} FilterProductsIdempotent(products: seq<Product>, selected: Option<CategoryId>)
    ensures FilterProducts(FilterProducts(products, selected), selected) == FilterProducts(products, selected)
  {
    if selected.Some? {
      var r := FilterProducts(products, selected);
      FilterAll(r, (p: Product) => InCategory(p, selected.value));
    }
  }

  /** Filtering the full product list on the page shows the same products as
      asking the server for that category's products. */
  lemma ClientFilterMatchesServer(s: Store, c: CategoryId)
    requires c in s.categories
    ensures ProductService.GetProductsByCategory(s, c).Success?
    ensures forall x :: x in FilterProducts(AllProducts(s), Some(c))
                        <==> x in ProductService.GetProductsByCategory(s, c).value.Values
  {
    var server := ProductService.GetProductsByCategory(s, c).value;
    var client := FilterProducts(AllProducts(s), Some(c));
    forall x | x in server.Values ensures x in client {
      var k :| k in server && server[k] == x;
    }
    forall x | x in client ensures x in server.Values {
      assert x.id in s.products && s.products[x.id] == x;
      assert x.id in server;
    }
  }
}

=== FILE: product_service.dfy ===
/** ProductService: lookup, listing by category, create, update and delete
    of products. */
module ProductService {
  import opened Outcomes
  import opened Entities
  import opened Repository
  import CategoryService

  /** The fields a create or update request carries, with the category as
      the request refers to it. */
  datatype ProductDetails = ProductDetails(
    name: string,
    description: string,
    priceCents: int,
    sku: string,
    category: Reference)

  /** How deleting a product treats its inventory row. The Product mapping
      decides this and is not part of this model: either the row is deleted
      with the product, or the foreign key refuses the delete. */
  datatype ProductDeletion = CascadeToInventory | RestrictedByInventory

  /** getProductById: the stored product, or NotFound. */
  function GetProductById(s: Store, id: ProductId): (r: Result<Product>)
    ensures r.Success? <==> id in s.products
    ensures r.Success? ==> r.value == s.products[id] && r.value.id == id
    ensures r.Failure? ==> r.error == NotFound
  {
    if id in s.products then Success(s.products[id]) else Failure(NotFound)
  }

  /** getProductsByCategory: NotFound for an unknown category, otherwise
      exactly the products filed under it. */
  function GetProductsByCategory(s: Store, category: CategoryId): (r: Result<map<ProductId, Product>>)
    ensures r.Failure? <==> category !in s.categories
    ensures r.Failure? ==> r.error == NotFound
    ensures r.Success? ==>
              && (forall k :: k in r.value <==> k in s.products && s.products[k].category == Some(category))
              && (forall k :: k in r.value ==> r.value[k] == s.products[k])
  {
    var c :- CategoryService.GetCategoryById(s, category);
    Success(ProductsInCategory(s, c.id))
  }

  /** createProduct: a category named by id must exist and replaces the
      request's reference. A category object without an id is not looked up
      and stays on the product, so the save refuses it as a reference to an
      unsaved category. With no category the product is stored uncategorised. */
  function CreateProduct(s: Store, details: ProductDetails): (r: Result<Saved<Product>>)
    ensures r.Failure? <==> details.category.Unsaved? || (details.category.ById? && details.category.id !in s.categories)
    ensures details.category.Unsaved? ==> r == Failure(UnsavedReference)
    ensures details.category.ById? && details.category.id !in s.categories ==> r == Failure(NotFound)
    ensures r.Success? ==>
              var p := r.value.entity;
              && p.id !in s.products
              && p == Product(p.id, details.name, details.description, details.priceCents, details.sku,
                              if details.category.ById? then Some(details.category.id) else None)
              && r.value.store.products == s.products[p.id := p]
              && r.value.store.categories == s.categories
              && r.value.store.records == s.records
    ensures r.Success? && Valid(s) ==> Valid(r.value.store)
  {
    var category :- match details.category
                    case NoReference => Success(None)
                    case Unsaved => Failure(UnsavedReference)
                    case ById(id) => var c :- CategoryService.GetCategoryById(s, id); Success(Some(c.id));
    Success(InsertProduct(s, details.name, details.description, details.priceCents, details.sku, category))
  }

  /** updateProduct: overwrites name, description, price and sku; moves the
      product to another category only when one is named by id, so an update
      can never clear the category, and a category without an id is ignored. */
  function UpdateProduct(s: Store, id: ProductId, details: ProductDetails): (r: Result<Saved<Product>>)
    ensures r.Failure? <==> id !in s.products || (details.category.ById? && details.category.id !in s.categories)
    ensures r.Failure? ==> r.error == NotFound
    ensures r.Success? ==>
              var p := r.value.entity;
              && p.id == id
              && p.name == details.name && p.description == details.description
              && p.priceCents == details.priceCents && p.sku == details.sku
              && p.category == (if details.category.ById? then Some(details.category.id) else s.products[id].category)
              && r.value.store.products == s.products[id := p]
              && r.value.store.categories == s.categories
              && r.value.store.records == s.records
    ensures r.Success? && Valid(s) ==> Valid(r.value.store)
  {
    var current :- GetProductById(s, id);
    var category :- if details.category.ById?
                    then var c :- CategoryService.GetCategoryById(s, details.category.id); Success(Some(c.id))
                    else Success(current.category);
    var p := current.(name := details.name, description := details.description,
                      priceCents := details.priceCents, sku := details.sku, category := category);
    Success(Saved(s.(products := s.products[id := p]), p))
  }

  /** An update that names no category by id keeps the one the product had. */
  lemma UpdateKeepsCategory(s: Store, id: ProductId, details: ProductDetails)
    requires id in s.products && !details.category.ById?
    ensures UpdateProduct(s, id, details).Success?
    ensures UpdateProduct(s, id, details).value.entity.category == s.products[id].category
  {
  }

  /** deleteProduct: NotFound for an unknown id; otherwise the product goes,
      and its inventory row either goes with it or blocks the delete. */
  function DeleteProduct(s: Store, id: ProductId, policy: ProductDeletion): (r: Result<Store>)
    ensures id !in s.products ==> r == Failure(NotFound)
    ensures id in s.products && policy == CascadeToInventory ==> r.Success?
    ensures id in s.products && policy == RestrictedByInventory ==>
              && (r == Failure(ForeignKeyViolation) <==> HasRecord(s, id))
              && (r.Success? <==> !HasRecord(s, id))
    ensures r.Success? ==>
              && r.value.products == s.products - {id}
              && r.value.categories == s.categories
              && (forall k :: k in r.value.records <==> k in s.records && s.records[k].product != id)
              && (forall k :: k in r.value.records ==> r.value.records[k] == s.records[k])
    ensures r.Success? && Valid(s) ==> Valid(r.value)
  {
    var product :- GetProductById(s, id);
    var referenced := exists k | k in s.records :: s.records[k].product == id;
    if referenced && policy == RestrictedByInventory then Failure(ForeignKeyViolation)
    else
      var kept := map k | k in s.records && s.records[k].product != id :: s.records[k];
      Success(s.(products := s.products - {id}, records := kept))
  }
}

=== FILE: repository.dfy ===
/** The persistent store: three id-keyed tables (categories, products,
    inventory), the identity counters that hand out fresh ids, and a clock
    that ticks on every save of an inventory row. Also the repository
    queries the services rely on. */
module Repository {
  import opened Outcomes
  import opened Collections
  import opened Entities

  datatype Tables = Tables(
    categories: map<CategoryId, Category>,
    products: map<ProductId, Product>,
    records: map<InventoryId, Inventory>,
    nextCategoryId: nat,
    nextProductId: nat,
    nextRecordId: nat,
    clock: nat)

  /** Every row is stored under its own id, and every id is below the next
      one the identity column will hand out. */
  predicate WellKeyed(t: Tables) {
    && KeysBelow(t.categories, t.nextCategoryId)
    && KeysBelow(t.products, t.nextProductId)
    && KeysBelow(t.records, t.nextRecordId)
    && (forall k :: k in t.categories ==> t.categories[k].id == k)
    && (forall k :: k in t.products ==> t.products[k].id == k)
    && (forall k :: k in t.records ==> t.records[k].id == k)
  }

  type Store = t: Tables | WellKeyed(t)
    witness Tables(map[], map[], map[], 0, 0, 0, 0)

  const EmptyStore: Store := Tables(map[], map[], map[], 0, 0, 0, 0)

  /** A saved entity together with the store that now holds it. */
  datatype Saved<T> = Saved(store: Store, entity: T)

  // ---------------------------------------------------------------------
  // The store invariant

  /** Every inventory row points at an existing product (@NotNull product). */
  ghost predicate RecordsReferenceProducts(s: Store) {
    forall k :: k in s.records ==> s.records[k].product in s.products
  }

  /** Both @Min(0) constraints hold of every stored row. */
  ghost predicate StockNonNegative(s: Store) {
    forall k :: k in s.records ==> s.records[k].quantity >= 0 && s.records[k].minStockLevel >= 0
  }

  /** The unique join column: no two rows share a product. */
  ghost predicate OneRecordPerProduct(s: Store) {
    forall j, k :: j in s.records && k in s.records && s.records[j].product == s.records[k].product ==> j == k
  }

  /** A product's category, when it has one, exists. */
  ghost predicate ProductsReferenceCategories(s: Store) {
    forall k :: k in s.products && s.products[k].category.Some? ==> s.products[k].category.value in s.categories
  }

  /** No row carries a timestamp later than the store's clock. */
  ghost predicate StampsNotAhead(s: Store) {
    forall k :: k in s.records ==> s.records[k].lastUpdated <= s.clock
  }

  ghost predicate Valid(s: Store) {
    && RecordsReferenceProducts(s)
    && StockNonNegative(s)
    && OneRecordPerProduct(s)
    && ProductsReferenceCategories(s)
    && StampsNotAhead(s)
  }

  /** The product has an inventory row. */
  ghost predicate HasRecord(s: Store, product: ProductId) {
    exists k :: k in s.records && s.records[k].product == product
  }

  /** The empty store satisfies the invariant. */
  lemma EmptyStoreValid()
    ensures Valid(EmptyStore)
  {
  }

  // ---------------------------------------------------------------------
  // Finders

  /** InventoryRepository.findByProduct: the row of a product, if any. */
  function FindByProduct(s: Store, product: ProductId): (r: Result<Option<InventoryId>>)
    ensures r.Failure? ==> r.error == NonUniqueResult
    ensures OneRecordPerProduct(s) ==> r.Success?
    ensures r == Success(None) <==> !HasRecord(s, product)
    ensures r.Success? && r.value.Some? ==>
              && r.value.value in s.records
              && s.records[r.value.value].product == product
              && forall k :: k in s.records && s.records[k].product == product ==> k == r.value.value
  {
    FindUnique(s.records, (i: Inventory) => i.product == product, s.nextRecordId)
  }

  /** ProductRepository.findBySku: the product with this sku, if any. */
  function FindBySku(s: Store, sku: string): (r: Result<Option<ProductId>>)
    ensures r.Failure? ==> r.error == NonUniqueResult
    ensures r.Failure? <==> exists j, k :: j in s.products && k in s.products && j != k
                                          && s.products[j].sku == sku && s.products[k].sku == sku
    ensures r == Success(None) <==> forall k :: k in s.products ==> s.products[k].sku != sku
    ensures r.Success? && r.value.Some? ==>
              && r.value.value in s.products
              && s.products[r.value.value].sku == sku
              && forall k :: k in s.products && s.products[k].sku == sku ==> k == r.value.value
  {
    FindUnique(s.products, (p: Product) => p.sku == sku, s.nextProductId)
  }

  /** CategoryRepository.findByName: the category with this name, if any. */
  function FindCategoryByName(s: Store, name: string): (r: Result<Option<CategoryId>>)
    ensures r.Failure? ==> r.error == NonUniqueResult
    ensures r.Failure? <==> exists j, k :: j in s.categories && k in s.categories && j != k
                                          && s.categories[j].name == name && s.categories[k].name == name
    ensures r == Success(None) <==> forall k :: k in s.categories ==> s.categories[k].name != name
    ensures r.Success? && r.value.Some? ==>
              && r.value.value in s.categories
              && s.categories[r.value.value].name == name
              && forall k :: k in s.categories && s.categories[k].name == name ==> k == r.value.value
  {
    FindUnique(s.categories, (c: Category) => c.name == name, s.nextCategoryId)
  }

  /** ProductRepository.findByCategory: the products filed under a category. */
  function ProductsInCategory(s: Store, category: CategoryId): (r: map<ProductId, Product>)
    ensures forall k :: k in r <==> k in s.products && s.products[k].category == Some(category)
    ensures forall k :: k in r ==> r[k] == s.products[k]
  {
    map k | k in s.products && s.products[k].category == Some(category) :: s.products[k]
  }

  // ---------------------------------------------------------------------
  // Listings and the low-stock query

  /** InventoryRepository.findAll, in id order. */
  function AllRecords(s: Store): (r: seq<Inventory>)
    ensures forall x :: x in r <==> x in s.records.Values
    ensures forall i :: 0 <= i < |r| ==> r[i].id in s.records && s.records[r[i].id] == r[i]
    ensures IdsAscending(r)
  {
    ListingAscending(s.records, s.nextRecordId);
    var r := Listing(s.records, s.nextRecordId);
    assert forall i :: 0 <= i < |r| ==> r[i] in s.records.Values && s.records[r[i].id] == r[i] by {
      forall i | 0 <= i < |r| ensures r[i] in s.records.Values && s.records[r[i].id] == r[i] {
        assert StoredBelow(s.records, s.nextRecordId, r[i]);
      }
    }
    r
  }

  /** ProductRepository.findAll, in id order. */
  function AllProducts(s: Store): (r: seq<Product>)
    ensures forall x :: x in r <==> x in s.products.Values
    ensures forall i :: 0 <= i < |r| ==> r[i].id in s.products && s.products[r[i].id] == r[i]
  {
    var r := Listing(s.products, s.nextProductId);
    assert forall i :: 0 <= i < |r| ==> r[i] in s.products.Values && s.products[r[i].id] == r[i] by {
      forall i | 0 <= i < |r| ensures r[i] in s.products.Values && s.products[r[i].id] == r[i] {
        assert StoredBelow(s.products, s.nextProductId, r[i]);
      }
    }
    r
  }

  /** The predicate of the low-stock query: at or below the minimum. */
  predicate IsLowStock(i: Inventory) {
    i.quantity <= i.minStockLevel
  }

  /** InventoryRepository.findLowStockItems: the stored rows whose quantity
      is at or below their minimum, in listing order. */
  function FindLowStockItems(s: Store): (r: seq<Inventory>)
    ensures |r| <= |AllRecords(s)|
    ensures forall x :: x in r <==> x in s.records.Values && x.quantity <= x.minStockLevel
    ensures forall i, j :: 0 <= i < j < |r| ==> r[i].id != r[j].id
  {
    FilterKeepsAscending(AllRecords(s), IsLowStock);
    Filter(AllRecords(s), IsLowStock)
  }

  /** The ids of the rows in the list increase strictly from left to right. */
  ghost predicate IdsAscending(items: seq<Inventory>) {
    forall i, j :: 0 <= i < j < |items| ==> items[i].id < items[j].id
  }

  /** Listing rows stored under their own ids yields them in ascending id
      order, every id below the bound. */
  lemma {:induction false} ListingAscending(m: map<InventoryId, Inventory>, n: nat)
    requires forall k :: k in m ==> m[k].id == k
    ensures forall i :: 0 <= i < |Listing(m, n)| ==> Listing(m, n)[i].id < n
    ensures IdsAscending(Listing(m, n))
  {
    if n > 0 {
      ListingAscending(m, n - 1);
      var front := Listing(m, n - 1);
      var last := if n - 1 in m then [m[n - 1]] else [];
      var r := front + last;
      assert Listing(m, n) == r;
      forall i | 0 <= i < |r| ensures r[i].id < n {
        if i < |front| {
          assert r[i] == front[i];
        }
      }
      forall i, j | 0 <= i < j < |r| ensures r[i].id < r[j].id {
        assert r[i] == front[i];
        if j < |front| {
          assert r[j] == front[j];
        }
      }
    }
  }

  /** Filtering keeps ascending ids ascending. */
  lemma {:induction false} FilterKeepsAscending(items: seq<Inventory>, p: Inventory -> bool)
    requires IdsAscending(items)
    ensures IdsAscending(Filter(items, p))
  {
    if items != [] {
      var rest := items[1..];
      TailAscending(items);
      FilterKeepsAscending(rest, p);
      var tail := Filter(rest, p);
      forall x | x in tail ensures items[0].id < x.id {
        var i :| 0 <= i < |rest| && rest[i] == x;
        assert x == items[i + 1];
      }
      if p(items[0]) {
        ConsAscending(items[0], tail);
      }
    }
  }

  /** Dropping the first row keeps the ids ascending, all above the first. */
  lemma TailAscending(items: seq<Inventory>)
    requires items != [] && IdsAscending(items)
    ensures IdsAscending(items[1..])
    ensures forall x :: x in items[1..] ==> items[0].id < x.id
  {
    var rest := items[1..];
    forall i, j | 0 <= i < j < |rest| ensures rest[i].id < rest[j].id {
      assert rest[i] == items[i + 1] && rest[j] == items[j + 1];
    }
  }

  /** A row with a smaller id than every row of an ascending list can be put
      in front of it. */
  lemma ConsAscending(x: Inventory, tail: seq<Inventory>)
    requires IdsAscending(tail)
    requires forall y :: y in tail ==> x.id < y.id
    ensures IdsAscending([x] + tail)
  {
    var r := [x] + tail;
    forall i, j | 0 <= i < j < |r| ensures r[i].id < r[j].id {
      assert r[j] == tail[j - 1] && tail[j - 1] in tail;
      if i > 0 {
        assert r[i] == tail[i - 1];
      }
    }
  }

  /** The ids of the listed rows. */
  function RecordIds(items: seq<Inventory>): (r: set<InventoryId>)
    ensures forall x :: x in r <==> exists i :: 0 <= i < |items| && items[i].id == x
  {
    if items == [] then {}
    else
      var rest := RecordIds(items[1..]);
      assert forall i :: 0 <= i < |items| - 1 ==> items[1..][i] == items[i + 1];
      {items[0].id} + rest
  }

  /** A list without repeated ids has as many ids as rows. */
  lemma {:induction false} DistinctIdsCount(items: seq<Inventory>)
    requires forall i, j :: 0 <= i < j < |items| ==> items[i].id != items[j].id
    ensures |RecordIds(items)| == |items|
  {
    if items != [] {
      var rest := items[1..];
      assert forall i :: 0 <= i < |rest| ==> rest[i] == items[i + 1];
      DistinctIdsCount(rest);
      assert items[0].id !in RecordIds(rest);
      assert RecordIds(items) == {items[0].id} + RecordIds(rest);
    }
  }

  /** The low-stock list holds one entry per stored row at or below its
      minimum. */
  lemma LowStockListSize(s: Store)
    ensures |FindLowStockItems(s)| == |set k | k in s.records && IsLowStock(s.records[k])|
  {
    var low := FindLowStockItems(s);
    DistinctIdsCount(low);
    LowStockIds(s, low);
  }

  /** The ids on a list holding exactly the low-stock rows are the keys of
      those rows. */
  lemma LowStockIds(s: Store, low: seq<Inventory>)
    requires forall x :: x in low <==> x in s.records.Values && IsLowStock(x)
    ensures RecordIds(low) == set k | k in s.records && IsLowStock(s.records[k])
  {
    var keys := set k | k in s.records && IsLowStock(s.records[k]);
    forall x | x in keys ensures x in RecordIds(low) {
      assert s.records[x] in low;
      var i :| 0 <= i < |low| && low[i] == s.records[x];
    }
    forall x | x in RecordIds(low) ensures x in keys {
      var i :| 0 <= i < |low| && low[i].id == x;
      assert low[i] in low;
    }
  }

  // ---------------------------------------------------------------------
  // Saving catalog rows

  /** CategoryRepository.save of a new category: a fresh id, nothing else
      changes. */
  function InsertCategory(s: Store, name: string, description: string): (r: Saved<Category>)
    ensures r.entity == Category(s.nextCategoryId, name, description)
    ensures r.entity.id !in s.categories
    ensures r.store == s.(categories := s.categories[r.entity.id := r.entity], nextCategoryId := s.nextCategoryId + 1)
    ensures Valid(s) ==> Valid(r.store)
  {
    var c := Category(s.nextCategoryId, name, description);
    Saved(s.(categories := s.categories[c.id := c], nextCategoryId := s.nextCategoryId + 1), c)
  }

  /** ProductRepository.save of a new product: a fresh id, nothing else
      changes. */
  function InsertProduct(s: Store, name: string, description: string, priceCents: int, sku: string,
                         category: Option<CategoryId>): (r: Saved<Product>)
    ensures r.entity == Product(s.nextProductId, name, description, priceCents, sku, category)
    ensures r.entity.id !in s.products
    ensures r.store == s.(products := s.products[r.entity.id := r.entity], nextProductId := s.nextProductId + 1)
    ensures Valid(s) && (category.Some? ==> category.value in s.categories) ==> Valid(r.store)
  {
    var p := Product(s.nextProductId, name, description, priceCents, sku, category);
    Saved(s.(products := s.products[p.id := p], nextProductId := s.nextProductId + 1), p)
  }

  // ---------------------------------------------------------------------
  // Saving inventory rows

  /** The store that holds `rec` in place of the row with its id, having
      ticked the clock once to stamp it. */
  function StoreRow(s: Store, rec: Inventory): (r: Store)
    requires rec.id < s.nextRecordId
    requires rec.lastUpdated == s.clock + 1
  {
    s.(records := s.records[rec.id := rec], clock := s.clock + 1)
  }

  /** s' is s with row rec.id rewritten to rec: same id and product, a fresh
      stamp, and nothing else in the store changed. */
  ghost predicate Rewritten(s: Store, s': Store, rec: Inventory) {
    && rec.id in s.records
    && rec.product == s.records[rec.id].product
    && rec.lastUpdated == s'.clock == s.clock + 1
    && s'.records == s.records[rec.id := rec]
    && s'.products == s.products
    && s'.categories == s.categories
    && s'.nextCategoryId == s.nextCategoryId
    && s'.nextProductId == s.nextProductId
    && s'.nextRecordId == s.nextRecordId
  }

  /** The save would write the values the row already holds. */
  predicate SameValues(s: Store, id: InventoryId, quantity: JavaInt, minStockLevel: JavaInt)
    requires id in s.records
  {
    quantity == s.records[id].quantity && minStockLevel == s.records[id].minStockLevel
  }

  /** Saving an existing row with new quantity and minimum. Bean validation
      refuses a negative value. A save that writes the values the row
      already holds leaves the entity clean: nothing is flushed, no
      @PreUpdate callback runs, and row, stamp and clock stay as they were.
      Otherwise the timestamp is refreshed and the row replaced. */
  function UpdateRow(s: Store, id: InventoryId, quantity: JavaInt, minStockLevel: JavaInt)
    : (r: Result<Saved<Inventory>>)
    requires id in s.records
    ensures r.Failure? <==> quantity < 0 || minStockLevel < 0
    ensures r.Failure? ==> r.error == ConstraintViolation
    ensures r.Success? ==>
              && r.value.entity.id == id
              && r.value.entity.quantity == quantity
              && r.value.entity.minStockLevel == minStockLevel
    ensures r.Success? && SameValues(s, id, quantity, minStockLevel) ==>
              r.value.store == s && r.value.entity == s.records[id]
    ensures r.Success? && !SameValues(s, id, quantity, minStockLevel) ==>
              Rewritten(s, r.value.store, r.value.entity)
    ensures r.Success? && Valid(s) ==> Valid(r.value.store)
  {
    if quantity < 0 || minStockLevel < 0 then Failure(ConstraintViolation)
    else if SameValues(s, id, quantity, minStockLevel) then Success(Saved(s, s.records[id]))
    else
      var rec := s.records[id].(quantity := quantity, minStockLevel := minStockLevel, lastUpdated := s.clock + 1);
      Success(Saved(StoreRow(s, rec), rec))
  }

  /** Persisting a new row for an existing product: validation first
      (@PrePersist), then a fresh id and a fresh stamp. */
  function InsertRow(s: Store, product: ProductId, quantity: JavaInt, minStockLevel: JavaInt)
    : (r: Result<Saved<Inventory>>)
    ensures r.Failure? <==> quantity < 0 || minStockLevel < 0
    ensures r.Failure? ==> r.error == ConstraintViolation
    ensures r.Success? ==>
              var rec := r.value.entity;
              && rec.id !in s.records
              && rec == Inventory(s.nextRecordId, product, quantity, minStockLevel, r.value.store.clock)
              && r.value.store.records == s.records[rec.id := rec]
              && r.value.store.clock == s.clock + 1
              && r.value.store.products == s.products
              && r.value.store.categories == s.categories
              && r.value.store.nextRecordId == s.nextRecordId + 1
              && r.value.store.nextProductId == s.nextProductId
              && r.value.store.nextCategoryId == s.nextCategoryId
    ensures r.Success? && Valid(s) && product in s.products && !HasRecord(s, product) ==> Valid(r.value.store)
  {
    if quantity < 0 || minStockLevel < 0 then Failure(ConstraintViolation)
    else
      var rec := Inventory(s.nextRecordId, product, quantity, minStockLevel, s.clock + 1);
      var s' := s.(nextRecordId := s.nextRecordId + 1);
      Success(Saved(StoreRow(s', rec), rec))
  }
}

=== FILE: seed_cleanup.dfy ===
/** The sample-data seeder and the seeded-data cleanup are inverse: on a
    store the seeder fills, the cleanup removes exactly what it added. */
module SeedCleanup {
  import opened Entities
  import opened Repository
  import Init = DataInitializer
  import Cleanup = DataCleanup
  import ProductService

  /** The seeder's skus and category names are the ones the cleanup looks
      for, in the same order, and no two of them coincide. */
  lemma SeedListsAgree()
    ensures |Init.PRODUCT_SEEDS| == |Cleanup.SEEDED_SKUS|
    ensures forall i :: 0 <= i < |Init.PRODUCT_SEEDS| ==> Init.PRODUCT_SEEDS[i].sku == Cleanup.SEEDED_SKUS[i]
    ensures Distinct(Cleanup.SEEDED_SKUS)
    ensures Init.SEEDED_CATEGORY_NAMES == Cleanup.SEEDED_CATEGORY_NAMES
    ensures Distinct(Cleanup.SEEDED_CATEGORY_NAMES)
  {
  }

  /** No string occurs twice in xs. */
  predicate Distinct(xs: seq<string>) {
    forall i, j :: 0 <= i < j < |xs| ==> xs[i] != xs[j]
  }

  /** In a list without repeats, equal entries sit at the same index. */
  lemma SameNameSameIndex(xs: seq<string>, i: nat, j: nat)
    requires Distinct(xs) && i < |xs| && j < |xs| && xs[i] == xs[j]
    ensures i == j
  {
  }

  /** The products are seeded with exactly the given skus, in order. */
  predicate SkusOf(products: seq<Init.ProductSeed>, skus: seq<string>) {
    && |products| == |skus|
    && (forall i :: 0 <= i < |products| ==> products[i].sku == skus[i])
  }

  /** No product of the store carries one of the skus. */
  ghost predicate NoneOfSkus(s: Store, skus: seq<string>) {
    forall k :: k in s.products ==> s.products[k].sku !in skus
  }

  /** A product the seeding adds is the seed i = k - n for its id k. */
  lemma AddedProduct(s: Store, t: Store, products: seq<Init.ProductSeed>, k: ProductId)
    requires Init.ProductsSeeded(s, t, products)
    requires k in t.products && k !in s.products
    ensures s.nextProductId <= k < s.nextProductId + |products|
    ensures t.products[k].sku == products[k - s.nextProductId].sku
  {
    var n := s.nextProductId;
    assert t.products[n + (k - n)] == Init.SeededProduct(k, products[k - n], Init.SeededCategoryIds(s));
  }

  /** A row the seeding adds belongs to the product with the same offset. */
  lemma AddedRow(s: Store, t: Store, stock: seq<Init.StockSeed>, k: InventoryId)
    requires Init.RowsSeeded(s, t, stock)
    requires k in t.records && k !in s.records
    ensures k - s.nextRecordId < |stock|
    ensures t.records[k].product == s.nextProductId + (k - s.nextRecordId)
  {
    var n := s.nextRecordId;
    assert t.records[n + (k - n)] == Init.SeededRow(k, s.nextProductId + (k - n), stock[k - n], s.clock + (k - n) + 1);
  }

  /** After seeding distinct skus that the store did not use, each of them
      names at most one product. */
  lemma SeededSkusUnique(s: Store, t: Store, products: seq<Init.ProductSeed>, skus: seq<string>)
    requires Init.ProductsSeeded(s, t, products)
    requires SkusOf(products, skus) && Distinct(skus) && NoneOfSkus(s, skus)
    ensures Cleanup.SkusUnique(t, skus)
  {
    forall j, k | (j in t.products && k in t.products && t.products[j].sku in skus
                   && t.products[j].sku == t.products[k].sku)
      ensures j == k
    {
      AddedProduct(s, t, products, j);
      AddedProduct(s, t, products, k);
    }
  }

  /** In a store without categories before seeding, category k is the
      seeded one with offset k - n. */
  lemma AddedCategory(s: Store, t: Store, names: seq<string>, k: CategoryId)
    requires Init.CategoriesSeeded(s, t, names)
    requires |s.categories| == 0 && k in t.categories
    ensures s.nextCategoryId <= k < s.nextCategoryId + 3
    ensures t.categories[k].name == names[k - s.nextCategoryId]
  {
    var n := s.nextCategoryId;
    assert s.categories == map[];
    assert n <= k < n + 3;
    assert t.categories[n + (k - n)].name == names[k - n];
  }

  /** After seeding distinct names into a store without categories, every
      category carries one of them and none is carried twice. */
  lemma SeededNamesUnique(s: Store, t: Store, names: seq<string>)
    requires Init.CategoriesSeeded(s, t, names)
    requires |s.categories| == 0 && Distinct(names)
    ensures Cleanup.NamesUnique(t, names)
    ensures forall k :: k in t.categories ==> t.categories[k].name in names
  {
    var n := s.nextCategoryId;
    forall k | k in t.categories
      ensures t.categories[k].name in names
    {
      AddedCategory(s, t, names, k);
    }
    forall j, k | (j in t.categories && k in t.categories && t.categories[j].name in names
                   && t.categories[j].name == t.categories[k].name)
      ensures j == k
    {
      AddedCategory(s, t, names, j);
      AddedCategory(s, t, names, k);
      SameNameSameIndex(names, j - n, k - n);
    }
  }

  /** Dropping the seeded rows from a seeded store gives back the inventory
      rows the store had. */
  lemma RecordsRestored(s: Store, t: Store, r: Store, products: seq<Init.ProductSeed>, stock: seq<Init.StockSeed>,
                        skus: seq<string>, names: seq<string>)
    requires RecordsReferenceProducts(s) && NoneOfSkus(s, skus) && SkusOf(products, skus)
    requires Init.ProductsSeeded(s, t, products) && Init.RowsSeeded(s, t, stock) && |stock| <= |products|
    requires Cleanup.SeededRowsDropped(t, r, skus, names)
    ensures r.records == s.records
  {
    forall k | k in t.records && k !in s.records
      ensures Cleanup.SkuListed(t, t.records[k].product, skus)
    {
      AddedRow(s, t, stock, k);
      AddedProduct(s, t, products, t.records[k].product);
    }
    forall k | k in s.records
      ensures k in r.records && r.records[k] == s.records[k]
    {
      assert s.records[k].product in s.products;
    }
    assert r.records.Keys == s.records.Keys;
  }

  /** Dropping the seeded rows from a seeded store gives back the products
      the store had. */
  lemma ProductsRestored(s: Store, t: Store, r: Store, products: seq<Init.ProductSeed>,
                         skus: seq<string>, names: seq<string>)
    requires NoneOfSkus(s, skus) && SkusOf(products, skus)
    requires Init.ProductsSeeded(s, t, products)
    requires Cleanup.SeededRowsDropped(t, r, skus, names)
    ensures r.products == s.products
  {
    forall k | k in t.products && k !in s.products
      ensures t.products[k].sku in skus
    {
      AddedProduct(s, t, products, k);
    }
    assert r.products.Keys == s.products.Keys;
  }

  /** In a store that had no categories before seeding, the products
      without a seeded sku are the old ones, and those have no category. */
  lemma SurvivorsUncategorised(s: Store, t: Store, products: seq<Init.ProductSeed>, skus: seq<string>)
    requires Valid(s) && |s.categories| == 0 && SkusOf(products, skus)
    requires Init.ProductsSeeded(s, t, products)
    ensures forall k :: k in t.products && t.products[k].sku !in skus ==> t.products[k].category.None?
  {
    forall k | k in t.products && t.products[k].sku !in skus
      ensures t.products[k].category.None?
    {
      if k !in s.products {
        AddedProduct(s, t, products, k);
      }
    }
  }

  /** The cleanup applied to a store seeded with the sample data succeeds
      and leaves the tables the store had before the seeding. */
  lemma CleanupUndoesSeed(s: Store, t: Store, policy: ProductService.ProductDeletion)
    requires Valid(s) && |s.categories| == 0 && NoneOfSkus(s, Cleanup.SEEDED_SKUS)
    requires Valid(t) && Init.SeededFrom(s, t, Init.PRODUCT_SEEDS, Init.STOCK_SEEDS, Init.SEEDED_CATEGORY_NAMES)
    ensures Cleanup.CleanupSeededData(t, policy).Success?
    ensures Cleanup.CleanupSeededData(t, policy).value.records == s.records
    ensures Cleanup.CleanupSeededData(t, policy).value.products == s.products
    ensures Cleanup.CleanupSeededData(t, policy).value.categories == s.categories
  {
    var products, stock := Init.PRODUCT_SEEDS, Init.STOCK_SEEDS;
    var skus, names := Cleanup.SEEDED_SKUS, Cleanup.SEEDED_CATEGORY_NAMES;
    SeedListsAgree();
    SeededSkusUnique(s, t, products, skus);
    SeededNamesUnique(s, t, names);
    SurvivorsUncategorised(s, t, products, skus);
    Cleanup.CleanupSeededSucceeds(t, policy);
    var r := Cleanup.CleanupSeededData(t, policy).value;
    RecordsRestored(s, t, r, products, stock, skus, names);
    ProductsRestored(s, t, r, products, skus, names);
    assert r.categories.Keys == {};
  }

  /** cleanupSeededData undoes DataInitializer.run: on a valid store without
      categories and without seeded skus, the cleanup succeeds and gives back
      exactly the tables the store had before the run. */
  lemma CleanupUndoesRun(s: Store, policy: ProductService.ProductDeletion)
    requires Valid(s) && |s.categories| == 0 && NoneOfSkus(s, Cleanup.SEEDED_SKUS)
    ensures Cleanup.CleanupSeededData(Init.Run(s), policy).Success?
    ensures Cleanup.CleanupSeededData(Init.Run(s), policy).value.records == s.records
    ensures Cleanup.CleanupSeededData(Init.Run(s), policy).value.products == s.products
    ensures Cleanup.CleanupSeededData(Init.Run(s), policy).value.categories == s.categories
  {
    Init.SampleSeedsFit();
    Init.SeedIsSeededFrom(s, Init.PRODUCT_SEEDS, Init.STOCK_SEEDS);
    Init.RunValid(s);
    CleanupUndoesSeed(s, Init.Run(s), policy);
  }
}
